=== FILE: README.md ===
# Team formation for a course space, modelled in Dafny

The application lets an instructor form student teams inside a course "space". Members rank
their peers and the space's projects. On request, the instructor's form turns those rankings
into the text arguments of an external team-formation solver. The solver's console output is
read back into a MasterTeam (one candidate grouping) and its Team rows. Among several candidate
groupings, the instructor finalises one.

This project models that core as pure Dafny functions over immutable data, and proves what
each step does with its inputs:

- `pystr.dfy` (module `PyStr`) models the string operations the code relies on:
  - Python's `str.split(sep)`, which keeps empty pieces, for one-character and longer separators;
  - joining, and the "append piece and separator, then cut the tail" idiom;
  - slicing;
  - `str(int)`, with a parser that inverts it.
- `models.dfy` (module `Models`) models the model-level decoders:
  - `MasterTeam.algorithm_type`;
  - `Team.__str__`;
  - `Preferences.preferences_as_names`;
  - `Preferences.project_preferences_as_names`.
- `functions.dfy` (module `Functions`) models the rows of the team spreadsheet that is mailed
  to the owner, and `authenticate_member`, whose one use is modelled in `rank_preferences.dfy`.
- `rank_preferences.dfy` (module `RankPreferences`) models `rank_preferences_view`: the
  `authenticate_member` gate, and how a submitted ranking is serialised into a member's
  Preferences row, or lost when the posted list cannot be decoded.
- `solver_input.dfy` (module `SolverInput`) models the encoder of the solver's two arguments:
  - the setup line;
  - the rank dictionaries;
  - one chunk of tokens per eligible member.
- `solver_output.dfy` (module `SolverOutput`) models the parser of the solver's `T:` and `S:`
  lines. It also gives two corrected parsers: one strips the line ending first, and one decodes
  ranks through the run's `rank_to_user_dict` (main/views.py:630-632).
- `lifecycle.dfy` (module `Lifecycle`) models the MasterTeam lifecycle:
  - a run adds a grouping and clears `teams_decided`;
  - finalising deletes every other grouping and sets the flag.

Modelling conventions:

- The Member table is a map from username to display name (`Models.Directory`). Where the code
  only asks whether a row exists, it is the set `accounts` of the usernames of all Member rows. That set
  includes "" when an invited account is still pending (main/views.py:433, 459).
- Query results are sequences in query order.
- A lookup that raises (`Member.objects.get` on an unknown username) is a `crash` value carrying
  the offending token.
- The permutation that `random.sample` draws is a parameter of the encoder.
- Lines read from the solver keep their line ending, exactly as the code reads them.

## Model

| member | source | states |
|---|---|---|
| `Models.AlgorithmType` | main/models.py:46-54 | The label is non-empty exactly for indices 0, 1 and 2, and those indices map to the three variant names. |
| `Models.AlgorithmTypeInjective` | main/models.py:46-54 | Two indices with the same non-empty label are equal, so the label identifies the solver variant. |
| `Models.TeamString` | main/models.py:64-70 | A team is shown as its members' names joined by ", ", with no trailing separator. It is empty for a team with no members. |
| `Models.Labels` | main/models.py:132-142 | There are never more labels than tokens. No label exists exactly when every token is shorter than 3. |
| `Models.LongTokens` | main/models.py:132-133 | The counted tokens are exactly the tokens of length 3 or more. When every token is that long, all of them are counted. |
| `Models.LongTokensAppend` | main/models.py:132-133 | Counting keeps token order: the counted tokens of two blocks are those of the first block followed by those of the second. |
| `Models.LabelsOfLongTokens` | main/models.py:132-142 | The labels shown are exactly the labels of the counted tokens, one per token, position by position and in token order. |
| `Models.PreferencesAsNames` | main/models.py:128-149 | The cases of the threshold as written, in terms of the labels. No labels gives "No preferences submitted.". Two or more labels are joined by ", ". One label shows when it has at least 2 characters and otherwise reads as "no preferences". |
| `Models.PreferencesAsNamesShape` | main/models.py:143-149 | When every member name has at least 2 characters, the placeholder appears exactly when no token reaches length 3. Otherwise the labels are shown joined. |
| `Models.UsernameShadowsSentinel` | main/models.py:134-139 | A member whose username is a sentinel is labelled with their name, because the Member lookup comes before the sentinel test. |
| `Models.ShortNameHidden` | main/models.py:145-148 | Counterexample for the `> 3` threshold: one real preference, for a member named "A", is shown as "No preferences submitted.". |
| `Models.PreferencesAsNamesIntended` | main/models.py:145-148 | Corrected threshold: the placeholder appears exactly when there is no label. Otherwise all labels are shown joined. |
| `Models.Recognised` | main/models.py:157-158 | The kept tokens are exactly the tokens that name an existing project, and no more of them than there are tokens. |
| `Models.Points` | main/models.py:155-161 | The points map covers exactly the starting keys plus every recognised project. |
| `Models.PointsLastOccurrence` | main/models.py:157-161 | Loop invariant of the counter. A recognised project ends with the counter value of its last recognised occurrence. Other entries keep their starting value. |
| `Models.Kept` | main/models.py:152-154 | `split(" ")[:-1]` keeps every piece except the last, in order. |
| `Models.ProjectPreferencesAsNames` | main/models.py:151-162 | The keys are exactly the recognised project names among the kept pieces. |
| `Models.ProjectPointsLastOccurrence` | main/models.py:155-161 | Every project gets between 1 and the number of recognised tokens points. The value is one more than the position of its last recognised occurrence, because the counter skips unknown names. |
| `Models.PointsArePositions` | main/models.py:155-161 | For any token list with distinct recognised names, the i-th recognised name gets exactly i + 1 points. |
| `Models.ProjectPointsArePositions` | main/models.py:155-161 | With distinct recognised names, the i-th one gets exactly i + 1 points. |
| `Models.ProjectPreferencesIntended` | main/models.py:151-162 | Corrected reader, splitting on ", " and keeping every piece: the keys are exactly the recognised project names among the pieces. |
| `Functions.HeaderRow` | main/functions.py:50-58 | The header row is "Team #" followed by "Member 1" .. "Member k": k is the team size when that is 3, 4 or 5, and 2 otherwise. |
| `Functions.HeaderText` | main/functions.py:50-57 | The literal header text is the comma join of "Team #" and the member labels. |
| `Functions.HeaderRowCells` | main/functions.py:50-58 | Splitting the header text on commas gives back exactly "Team #" and the member labels. |
| `Functions.Row` | main/functions.py:64-69 | A data row is the team number followed by the comma-split pieces of the member names; the trailing comma is removed. |
| `Functions.RowsFrom` | main/functions.py:62-72 | Rows are numbered consecutively in team order, one row per team. |
| `Functions.Spreadsheet` | main/functions.py:46-72 | The sheet has one header row plus one row per team, and row i starts with the number i. |
| `Functions.RowLayout` | main/functions.py:64-69 | Row width is 1 + names + commas in names. With comma-free names the row is the number followed by the names. A team with no members gives just the number. |
| `Functions.CommaNameSpreads` | main/functions.py:67-69 | A name containing one comma spreads over two cells, shifting the later columns. |
| `RankPreferences.LastWord` | main/views.py:509-510 | The last word has no space, is a suffix of the entry, and is preceded by a space unless it is the whole entry. |
| `RankPreferences.PeerToken` | main/views.py:510-517 | The stored token never contains a space. |
| `RankPreferences.MembersRanking` | main/views.py:507-517 | Reading the stored text back with `split(" ")` gives each entry's token in submission order, plus one final empty piece. |
| `RankPreferences.PeerTokenOfUser` | main/views.py:515-517 | An entry "Display Name (user)" is stored as the bare username, whatever the display name holds. |
| `RankPreferences.SentinelEntries` | main/views.py:511-514 | Entries ending in "Myself" or "Team" are stored as "@myself@" or "@team@". |
| `RankPreferences.ProjectsRanking` | main/views.py:498-501 | The stored project ranking is the names joined by ", ". It is empty for no projects. |
| `RankPreferences.ProjectRankingUnreadable` | main/views.py:498-501 | Counterexample: a two-project ranking as stored is read back as the single piece "A,", so no project gets points. |
| `RankPreferences.ProjectRankingRoundTrip` | main/models.py:151-162 | Corrected round trip. The corrected reader reads the stored text of distinct existing projects, none containing ", ", as follows: the i-th project gets i + 1 points, and no other name gets any. An empty submission can give points only to a project named "". |
| `RankPreferences.Submit` | main/views.py:490-519 | Other members' rows are unchanged. The submitter's row is replaced: the submitted category holds the new ranking and the other category is reset to "". A posted list that cannot be decoded raises after the deletion, so the submitter is left with no row. |
| `RankPreferences.RankPreferencesView` | main/views.py:474-519 | The `authenticate_member` gate (main/functions.py:11-14): a request whose logged-in username is not the URL member's username changes nothing, and neither does a request that is not an AJAX request. An AJAX request with no or an unknown category, such as an AJAX GET, resets the row to two empty rankings. An undecodable list deletes the row. No request changes a row other than the requester's own, and no request adds a row for anyone else. |
| `RankPreferences.ViewsCommute` | main/views.py:474-519 | Requests of two different users can be served in either order with the same result. |
| `SolverInput.SetupTokens` | main/views.py:622-623 | Six setup tokens, none containing a space. |
| `SolverInput.SetupLine` | main/views.py:622-623 | Splitting the setup line on spaces gives back exactly the six tokens in protocol order. |
| `SolverInput.Eligible` | main/views.py:619-620 | The members sent to the solver are exactly the participants whose name is not "Account in Progress". |
| `SolverInput.UserToRank` | main/views.py:631-639 | The username dictionary's keys are exactly the eligible usernames. |
| `SolverInput.RankToUser` | main/views.py:631-639 | The rank dictionary's keys are exactly the sampled ranks. |
| `SolverInput.PermutationCovers` | main/views.py:633 | A sample of n numbers out of 0 .. n-1 without repetition uses every rank below n. |
| `SolverInput.RankMapsBijection` | main/views.py:631-639 | With distinct usernames, the two dictionaries are mutually inverse bijections between the usernames and 0 .. n-1. |
| `SolverInput.ScanRanks` | main/views.py:650-657 | Once the finished flag is set, nothing more is emitted. At most one rank is emitted per token. |
| `SolverInput.EmittedRanks` | main/views.py:650-657 | The flag loop emits exactly the ranks of the known tokens before the first "@myself@". |
| `SolverInput.Chunk` | main/views.py:644-664 | With a Preferences row, a member's chunk is the head, a space, "alone" and the ranks of the known tokens before "@myself@". |
| `SolverInput.ChunkTerminated` | main/views.py:644-664 | Every token of a chunk is followed by exactly one space. |
| `SolverInput.ChunkTokens` | main/views.py:644-664 | The solver reads a chunk as the username and the rank, then "alone" alone, or "", "alone" and the ranks. |
| `SolverInput.SubmittedPeersReachSolver` | main/views.py:650-657 | End to end from submission: the solver receives the ranks of the submitted peers, in order, up to the "Myself" entry. |
| `SolverInput.TeamMarkerUnreachable` | main/views.py:652-661 | As written, a ranking holding "@team@" still yields a chunk different from the intended one, because the marker stays "alone". |
| `SolverInput.MarkerIntended` | main/views.py:652-661 | Corrected marker: "team" exactly when a token is "@team@", otherwise "alone". |
| `SolverInput.ChunkIntended` | main/views.py:652-662 | The corrected chunk equals the written chunk unless the ranking holds "@team@". In that case it carries "team" in place of "alone". |
| `SolverInput.PreferencesText` | main/views.py:642-665 | The preferences argument is empty exactly when no member is eligible. |
| `SolverInput.PreferencesTokens` | main/views.py:642-665 | The solver reads the preferences argument as every member's chunk tokens, in query order, plus one empty piece. |
| `SolverInput.Encode` | main/views.py:619-665 | The setup argument is the setup line for the number of eligible members, so its count token is that number. Every eligible member has a rank, and the rank dictionary's keys are the sampled ranks. |
| `SolverInput.MemberRanks` | main/views.py:631-639 | Each eligible member's rank translates back to that member, and the ranks in use are exactly 0 .. n-1. |
| `SolverInput.EncodeRankMaps` | main/views.py:631-639 | For a permutation sample and distinct usernames, each eligible member's rank translates back to their username. Each rank below n translates to a username and back. |
| `SolverInput.UsernamesInClear` | main/views.py:644 | The input is not anonymised: the first token the solver reads is the first member's username, and the second is their rank. |
| `SolverOutput.TeamMembers` | main/views.py:682-689 | A `T:` team holds exactly the tokens that are usernames of Member rows. |
| `SolverOutput.SoloTeams` | main/views.py:693-699 | A lookup raises only on a non-empty token of the line that is no Member's username. Every team created holds only usernames of Member rows. |
| `SolverOutput.SoloTeamsComplete` | main/views.py:693-699 | An `S:` line raises exactly when some non-empty token is no Member's username. Otherwise it creates one singleton team per non-empty token, in order. |
| `SolverOutput.ParseLine` | main/views.py:680-699 | A `T:` line gives one team, an `S:` line its singletons, and any other line nothing. All teams hold only usernames of Member rows. |
| `SolverOutput.Run` | main/views.py:678-699 | A run without failing lines does not fail, and any failure comes from one of the lines. |
| `SolverOutput.RunStopsAtFirstCrash` | main/views.py:678-699 | The first line that raises ends the run: its token is the run's failure, and later lines add no team. |
| `SolverOutput.ParseOutput` | main/views.py:678-699 | Every team created from the output holds only usernames of Member rows. |
| `SolverOutput.ParseOutputConcat` | main/views.py:678-699 | Reading the output in two blocks gives the same result as reading it at once, when the first block raises nothing. |
| `SolverOutput.TeamLine` | main/views.py:680-690 | A `T:` line always creates exactly one team, possibly empty, and never raises. |
| `SolverOutput.SoloLine` | main/views.py:691-699 | An `S:` line whose tokens all name Member rows creates their singleton teams. |
| `SolverOutput.UntaggedLine` | main/views.py:680-699 | A line with neither tag changes nothing. |
| `SolverOutput.RankTokensDropped` | main/views.py:686-696 | Counterexample, conditional on the solver answering in ranks: a `T:` line of ranks gives an empty team and an `S:` line raises. |
| `SolverOutput.LastMemberDropped` | main/views.py:679-687 | Counterexample: "T: a b" with its line ending makes the team {a}; b is lost. |
| `SolverOutput.PendingAccountJoins` | main/views.py:682-689 | When exactly one pending invited account exists, a "" token on a `T:` line adds it, whose username is "", to the team. |
| `SolverOutput.SoloLineEndingRaises` | main/views.py:691-697 | An `S:` line ending in a line break raises on its last username. |
| `SolverOutput.ParseLineStripped` | main/views.py:679-682 | Corrected line ending: a line without "\n" is read exactly as the code reads it, and every team holds only usernames of Member rows. |
| `SolverOutput.StrippedKeepsLastMember` | main/views.py:679-689 | With the line ending stripped, "T: a b\n" makes the team {a, b}. |
| `SolverOutput.StrippedSoloLine` | main/views.py:679-697 | With the line ending stripped, "S: a\n" makes the singleton team {a} and does not raise. |
| `SolverOutput.ParseLineIntended` | main/views.py:678-699 | The corrected rank parser never raises, and its teams contain only usernames from the run's rank dictionary. |
| `SolverOutput.DecodedRoundTrip` | main/views.py:680-690 | Corrected round trip: a `T:` line listing the ranks the encoder gave to some members is read back as exactly those members, line ending included. |
| `SolverOutput.IntendedIgnoresLineEnd` | main/views.py:679-682 | The corrected rank parser gives the same teams with or without the final line ending. |
| `Lifecycle.StartRun` | main/views.py:672-676 | A run appends a MasterTeam with the chosen group size and index and iterative soulmates set. It appends its team rows and clears `teams_decided`. Earlier rows are untouched. |
| `Lifecycle.FormTeams` | main/views.py:672-699 | Every row created by a run, even one that raises part way, belongs to the new MasterTeam and holds only usernames of Member rows. |
| `Lifecycle.StartRunValid` | main/views.py:672-676 | A run keeps ids unique and every team attached to an existing MasterTeam. |
| `Lifecycle.ChosenIndex` | main/views.py:753-757 | The loop's result position is -1 exactly when no MasterTeam is selected. Otherwise it is a selected position with no selected MasterTeam after it. |
| `Lifecycle.Chosen` | main/views.py:753-757 | No grouping is chosen exactly when no MasterTeam id is posted with a non-empty value. Otherwise the last selected one in query order is chosen. |
| `Lifecycle.Finalize` | main/views.py:750-763 | With a choice, only the chosen MasterTeam and its teams remain and `teams_decided` is set. Without one, the state is unchanged. |
| `Lifecycle.FinalizeValid` | main/views.py:750-763 | Finalising keeps the invariant, and with a choice leaves exactly that one MasterTeam. |
| `Lifecycle.FinalizeIdempotent` | main/views.py:750-763 | Posting the same form twice changes nothing more than posting it once. |
| `Lifecycle.FinalizeSingle` | main/views.py:753-757 | A form naming one MasterTeam of the space leaves exactly that MasterTeam and sets the flag. |
| `Lifecycle.RunAfterFinalize` | main/views.py:672-676 | A run after finalising reopens the decision: the flag is cleared and the finalised grouping stays beside the new one. |

## Left out

- The solver itself and the `Popen` call that starts it are not modelled: its output lines are a parameter of `SolverOutput.ParseOutput` and `Lifecycle.FormTeams`. The solver's reply format is therefore not known to the model.
- `random.sample` is not modelled: the drawn sequence is the parameter `perm`. Properties that need a genuine permutation require `SolverInput.IsPermutation`.
- The float scaling of alpha and theta (`float(x) * 1000000`, `float(x) * 100`, then `int`) is not modelled: the scaled integers are fields of `SolverInput.RunConfig`.
- SolverInput.SetupLine: the group size and algorithm index are written as the decimal form of their integer values. The code forwards the raw form strings, which may differ (for example "03"). Parsing them with `int()` is likewise assumed to succeed.
- Email sending, the notification loop after finalising, and the CSV writer's quoting are not modelled. `Functions.Spreadsheet` stops at the list of cells handed to the writer.
- The `member` lookup at main/views.py:477 is a parameter of `RankPreferences.RankPreferencesView`; a URL naming no Member, which raises there, is not modelled. Rendering the page and the redirect target are left out.
- CSV upload of participants, `assign_teams_view`, the other views, URL routing, forms, templates and authentication middleware are not part of this model.
- The owner gates are not modelled: `form_teams_view` (main/views.py:606-607) and `compare_teams_view` (main/views.py:747-748) return early for anyone but the space's owner, while `Lifecycle.FormTeams` and `Lifecycle.Finalize` apply for any caller.
- The ORM is not modelled: tables are maps and sequences, and a query's order is the sequence order given.
- `get()` raising `MultipleObjectsReturned` is not modelled. Lookups are a membership test on `accounts` or on the project names, so at most one row can match. Project names are unique because main/views.py:249-251 rejects a duplicate. Usernames need not be: every pending invited account has the username "" (main/views.py:433, 459). So a "" token on a `T:` line raises in the code (main/views.py:686-687) once two such accounts exist; `S:` lines skip "" (main/views.py:695). When exactly one pending account exists, a "" token on a `T:` line adds that account to the team.
- Decoding the solver's bytes as UTF-8 is not modelled: lines are strings.
- SolverOutput.SoloTeams: in the raising case the contract names the offending token but not the singleton teams created before it. `SolverOutput.SoloTeamsComplete` covers the non-raising case.
- SolverOutput.Run: its own contract only says that a failure comes from some line. Which line, and that later lines are ignored, is stated by `SolverOutput.RunStopsAtFirstCrash`.
- Models.Labels: its own contract states only how many labels there are and when there are none. Which label stands at each position is stated by `Models.LabelsOfLongTokens`.
- The model follows the code in these behaviours, which a reader might not expect:
  - The output parser looks tokens up as usernames, not as ranks (main/views.py:686, 696; see Findings).
  - An `S:` token that is not a username raises rather than being skipped (main/views.py:696).
  - A run that raises part way keeps its MasterTeam and the teams created so far (main/views.py:672-699).
  - Finalising with an id that names no MasterTeam of the space is a silent no-op, not an error (main/views.py:753-757).
  - Finalising twice is allowed and idempotent on the stored state (main/views.py:750-763); the spreadsheet and the emails are sent again each time (main/views.py:765-786), which is not modelled.
  - Usernames reach the solver in clear (main/views.py:644).

## Findings

| source | as written | input that shows it | evidently intended | confidence | as-written member | corrected member |
|---|---|---|---|---|---|---|
| main/views.py:654 | The test compares the Preferences row object, not the current token, with "@team@", so `wants_any_team` is never set. | A member whose ranking is "@team@ " gets the marker "alone". | Compare the token, so that the marker is "team" when the ranking holds "@team@". | high, not executed | `SolverInput.TeamMarkerUnreachable` | `SolverInput.ChunkIntended` |
| main/models.py:145-148 | The labels are shown only when the accumulated "label, " text is longer than 3 characters. | Ranking "abc " where member abc is named "A": the text "A, " has length 3, so "No preferences submitted." is shown. | Show the labels whenever there is at least one. | low, not executed | `Models.ShortNameHidden` | `Models.PreferencesAsNamesIntended` |
| main/views.py:498-501 | Projects are stored joined by ", ", but the reader at main/models.py:152-154 splits on one space and drops the last piece. | Submitting ["Alpha", "Beta"] stores "Alpha, Beta", which reads back as ["Alpha,"]: no project gets points. | Read the stored text by splitting on ", " and keeping every piece. | high, not executed | `RankPreferences.ProjectRankingUnreadable` | `RankPreferences.ProjectRankingRoundTrip` |
| main/views.py:686-696 | Output tokens are looked up as usernames. The run builds `rank_to_user_dict` to look up usernames by rank (comment at main/views.py:630) but never reads it. The solver is sent each member's username and rank (main/views.py:644); its reply format is not part of this repository. | If the solver answers in ranks: a run where ranks 0 and 2 are alice and carol, with solver output "T: 0 2", gives an empty team, and "S: 0" raises. | Decode every token through `rank_to_user_dict`. | low, not executed | `SolverOutput.RankTokensDropped` | `SolverOutput.DecodedRoundTrip` |
| main/views.py:679-682 | The decoded line keeps its "\n", so the last token carries it. This holds whatever the tokens stand for. | "T: alice bob\n", with both usernames of Member rows, gives the team {alice}. | Strip the line ending before splitting. | medium, not executed | `SolverOutput.LastMemberDropped` | `SolverOutput.StrippedKeepsLastMember` |

=== FILE: common.dfy ===
/** Small shared datatypes. */
module Common {

  /** A value that may be absent: a missing database row, a crash token, no selection. */
  datatype Option<+T> = None | Some(value: T)
}

=== FILE: functions.dfy ===
/**
 The helpers of main/functions.py that carry logic of their own:
 `authenticate_member`, and the header and data rows of the CSV file that
 `send_owner_spreadsheet` attaches to the owner's email. Building the email and
 writing the CSV text are left out; a row is the list of cells handed to the
 CSV writer.
 */
module Functions {
  import opened PyStr
  import opened Models

  /** The part of an HTTP request the helpers read: the logged-in user's username. */
  datatype Request = Request(username: string)

  /** `authenticate_member`: the request belongs to `member`. */
  function AuthenticateMember(request: Request, member: Member): (ok: bool)
    ensures ok <==> request.username == member.username
  {
    request.username == member.username
  }

  // ---------------------------------------------------------------------------
  // Header row
  // ---------------------------------------------------------------------------

  /** The member columns of the header, as the comma-separated text the source selects
      ("Member 1,Member 2" unless the team size is 3, 4 or 5). */
  function MemberHeader(numberOfMembers: int): string
  {
    if numberOfMembers == 3 then "Member 1" + "," + ("Member 2" + "," + "Member 3")
    else if numberOfMembers == 4 then "Member 1" + "," + ("Member 2" + "," + ("Member 3" + "," + "Member 4"))
    else if numberOfMembers == 5 then "Member 1" + "," + ("Member 2" + "," + ("Member 3" + "," + ("Member 4" + "," + "Member 5")))
    else "Member 1" + "," + "Member 2"
  }

  /** The number of member columns: the team size when it is 3, 4 or 5, otherwise 2. */
  function Columns(numberOfMembers: int): nat
  {
    if 3 <= numberOfMembers <= 5 then numberOfMembers else 2
  }

  /** "Member 1", ..., "Member n". */
  function MemberLabels(n: nat): (labels: seq<string>)
    ensures |labels| == n
    ensures forall i :: 0 <= i < n ==> labels[i] == "Member " + NatToString(i + 1)
  {
    seq(n, i requires 0 <= i => "Member " + NatToString(i + 1))
  }

  /** The header row: "Team #, Member 1 .. Member K" text split on commas. */
  function HeaderRow(numberOfMembers: int): (row: seq<string>)
    ensures row == ["Team #"] + MemberLabels(Columns(numberOfMembers))
  {
    HeaderRowCells(numberOfMembers);
    Split("Team #," + MemberHeader(numberOfMembers), ',')
  }

  lemma FiveMemberLabels()
    ensures MemberLabels(5) == ["Member 1", "Member 2", "Member 3", "Member 4", "Member 5"]
  {
    var m := MemberLabels(5);
    var e := ["Member 1", "Member 2", "Member 3", "Member 4", "Member 5"];
    assert NatToString(1) == "1";
    assert m[0] == e[0];
    assert NatToString(2) == "2";
    assert m[1] == e[1];
    assert NatToString(3) == "3";
    assert m[2] == e[2];
    assert NatToString(4) == "4";
    assert m[3] == e[3];
    assert NatToString(5) == "5";
    assert m[4] == e[4];
  }

  /** The header text is the comma-join of "Team #" and the member labels. */
  lemma HeaderText(numberOfMembers: int)
    ensures "Team #," + MemberHeader(numberOfMembers) == Join(["Team #"] + MemberLabels(Columns(numberOfMembers)), ",")
  {
    FiveMemberLabels();
    var m := MemberLabels(5);
    var c := Columns(numberOfMembers);
    assert MemberLabels(c) == m[..c];
    var l := ["Team #"] + m[..c];
    assert "Team #," == "Team #" + ",";
    if c == 2 {
      assert l == ["Team #"] + (["Member 1"] + ["Member 2"]);
      JoinCons("Member 1", ["Member 2"], ",");
    } else if c == 3 {
      assert l == ["Team #"] + (["Member 1"] + (["Member 2"] + ["Member 3"]));
      JoinCons("Member 2", ["Member 3"], ",");
      JoinCons("Member 1", ["Member 2"] + ["Member 3"], ",");
    } else if c == 4 {
      assert l == ["Team #"] + (["Member 1"] + (["Member 2"] + (["Member 3"] + ["Member 4"])));
      JoinCons("Member 3", ["Member 4"], ",");
      JoinCons("Member 2", ["Member 3"] + ["Member 4"], ",");
      JoinCons("Member 1", ["Member 2"] + (["Member 3"] + ["Member 4"]), ",");
    } else {
      assert l == ["Team #"] + (["Member 1"] + (["Member 2"] + (["Member 3"] + (["Member 4"] + ["Member 5"]))));
      JoinCons("Member 4", ["Member 5"], ",");
      JoinCons("Member 3", ["Member 4"] + ["Member 5"], ",");
      JoinCons("Member 2", ["Member 3"] + (["Member 4"] + ["Member 5"]), ",");
      JoinCons("Member 1", ["Member 2"] + (["Member 3"] + (["Member 4"] + ["Member 5"])), ",");
    }
    JoinCons("Team #", m[..c], ",");
  }

  lemma HeaderRowCells(numberOfMembers: int)
    ensures Split("Team #," + MemberHeader(numberOfMembers), ',') == ["Team #"] + MemberLabels(Columns(numberOfMembers))
  {
    var labels := ["Team #"] + MemberLabels(Columns(numberOfMembers));
    HeaderText(numberOfMembers);
    FiveMemberLabels();
    assert forall i :: 0 <= i < |labels| ==> ',' !in labels[i];
    SplitJoinRoundTrip(labels, ',');
  }

  // ---------------------------------------------------------------------------
  // Data rows
  // ---------------------------------------------------------------------------

  /** One data row as written: the team number and a comma after it and after every member name,
      the final comma cut off, and the text split on commas. */
  function Row(number: nat, names: seq<string>): (cells: seq<string>)
    ensures cells == [NatToString(number)] + SplitEach(names, ',')
  {
    var parts := [NatToString(number)] + names;
    assert parts[1..] == names;
    DropLastTerminated(parts, ",");
    SplitJoin(parts, ',');
    NatToStringHasNoSeparator(number);
    SplitNoSeparator(NatToString(number), ',');
    Split(DropLast(NatToString(number) + "," + Terminated(names, ","), 1), ',')
  }

  /** The rows of the teams, numbered consecutively from `number` in iteration order. */
  function RowsFrom(teams: seq<seq<string>>, number: nat): (rows: seq<seq<string>>)
    ensures |rows| == |teams|
    ensures forall i :: 0 <= i < |teams| ==> rows[i] == Row(number + i, teams[i])
    decreases |teams|
  {
    if |teams| == 0 then [] else [Row(number, teams[0])] + RowsFrom(teams[1..], number + 1)
  }

  /** The whole sheet: the header, then one row per team, `teams` holding each team's member
      names in query order. */
  function Spreadsheet(numberOfMembers: int, teams: seq<seq<string>>): (sheet: seq<seq<string>>)
    ensures |sheet| == |teams| + 1
    ensures sheet[0] == ["Team #"] + MemberLabels(Columns(numberOfMembers))
    ensures forall i :: 1 <= i < |sheet| ==> sheet[i] == Row(i, teams[i - 1]) && sheet[i][0] == NatToString(i)
  {
    [HeaderRow(numberOfMembers)] + RowsFrom(teams, 1)
  }

  /** The number of commas in all the names together. */
  function Commas(names: seq<string>): nat
  {
    if |names| == 0 then 0 else multiset(names[0])[','] + Commas(names[1..])
  }

  /** Row layout: the team number comes first; with comma-free names each name fills exactly one
      cell, a team without members yields just the number, and every comma inside a name adds
      one more cell. */
  lemma {:induction false} RowLayout(number: nat, names: seq<string>)
    ensures Row(number, names)[0] == NatToString(number)
    ensures |Row(number, names)| == 1 + |names| + Commas(names)
    ensures (forall i :: 0 <= i < |names| ==> ',' !in names[i]) ==> Row(number, names) == [NatToString(number)] + names
    ensures names == [] ==> Row(number, names) == [NatToString(number)]
  {
    SplitEachWidth(names);
    if forall i :: 0 <= i < |names| ==> ',' !in names[i] {
      SplitEachNoSeparator(names, ',');
    }
  }

  lemma {:induction false} SplitEachWidth(names: seq<string>)
    ensures |SplitEach(names, ',')| == |names| + Commas(names)
    decreases |names|
  {
    if |names| > 0 {
      SplitCount(names[0], ',');
      SplitEachWidth(names[1..]);
    }
  }

  /** A name with one comma spreads over two cells: "Doe, Jane" fills the cells "Doe" and " Jane". */
  lemma CommaNameSpreads(number: nat, before: string, after: string)
    requires ',' !in before && ',' !in after
    ensures Row(number, [before + "," + after]) == [NatToString(number), before, after]
  {
    var name := before + "," + after;
    assert name == before + [','] + after;
    SplitConcat(before, after, ',');
    SplitNoSeparator(before, ',');
    SplitNoSeparator(after, ',');
    var names := [name];
    assert names[1..] == [];
    assert SplitEach(names, ',') == Split(name, ',') + SplitEach([], ',');
  }
}

=== FILE: lifecycle.dfy ===
/**
 The candidate groupings of a space: every run of `form_teams_view` adds a
 MasterTeam with its teams and clears `teams_decided`; `compare_teams_view`
 keeps the grouping the owner selected, deletes the others (their teams go
 with them) and sets `teams_decided`.

 The database assigns the new MasterTeam's id; it is a parameter that must be
 fresh. The posted form is a map from field names to submitted values.
 */
module Lifecycle {
  import opened Common
  import opened PyStr
  import opened Models
  import SolverInput
  import SolverOutput

  /** A Team row: the id of its MasterTeam and the usernames of its members. */
  datatype TeamRow = TeamRow(master: nat, members: set<string>)

  /** What the two views read and write of one space: its MasterTeams in query order, its Team
      rows in creation order, and the `teams_decided` flag. */
  datatype SpaceState = SpaceState(masters: seq<MasterTeam>, teams: seq<TeamRow>, teamsDecided: bool)

  predicate HasId(masters: seq<MasterTeam>, id: nat)
  {
    exists i :: 0 <= i < |masters| && masters[i].id == id
  }

  predicate DistinctIds(masters: seq<MasterTeam>)
  {
    forall i, j :: 0 <= i < j < |masters| ==> masters[i].id != masters[j].id
  }

  /** The invariant the two views keep: ids are unique, every team belongs to a MasterTeam of the
      space, and once the teams are decided exactly one MasterTeam is left. */
  predicate Valid(s: SpaceState)
  {
    && DistinctIds(s.masters)
    && (forall k :: 0 <= k < |s.teams| ==> HasId(s.masters, s.teams[k].master))
    && (s.teamsDecided ==> |s.masters| == 1)
  }

  /** A space before any run: no MasterTeam, no team, not decided. */
  lemma EmptySpaceValid()
    ensures Valid(SpaceState([], [], false))
  {
  }

  /** One Team row of the new MasterTeam per parsed team. */
  function TeamRows(id: nat, teams: seq<set<string>>): (rows: seq<TeamRow>)
    ensures |rows| == |teams|
    ensures forall k :: 0 <= k < |teams| ==> rows[k] == TeamRow(id, teams[k])
  {
    seq(|teams|, k requires 0 <= k < |teams| => TeamRow(id, teams[k]))
  }

  /** Lines 672-676 and 678-699: a run saves a new MasterTeam with the chosen group size and
      algorithm and `iterative_soulmates` set, clears `teams_decided`, and then adds the teams read
      from the solver. Existing MasterTeams and teams are kept. */
  function StartRun(s: SpaceState, id: nat, config: SolverInput.RunConfig, teams: seq<set<string>>): (t: SpaceState)
    requires !HasId(s.masters, id)
    ensures |t.masters| == |s.masters| + 1 && t.masters[..|s.masters|] == s.masters
    ensures t.masters[|s.masters|] == MasterTeam(id, config.groupSize, true, config.algorithmIndex)
    ensures |t.teams| == |s.teams| + |teams| && t.teams[..|s.teams|] == s.teams
    ensures forall k :: 0 <= k < |teams| ==> t.teams[|s.teams| + k] == TeamRow(id, teams[k])
    ensures !t.teamsDecided
  {
    var master := MasterTeam(id, config.groupSize, SolverInput.IterativeSoulmates == "1", config.algorithmIndex);
    SpaceState(s.masters + [master], s.teams + TeamRows(id, teams), false)
  }

  /** A run that reads the solver's output as written: the teams created before a lookup raises are
      kept, since nothing rolls the run back. */
  function FormTeams(s: SpaceState, id: nat, config: SolverInput.RunConfig, output: seq<string>, accounts: set<string>): (t: SpaceState)
    requires !HasId(s.masters, id)
    ensures forall k :: |s.teams| <= k < |t.teams| ==> t.teams[k].master == id && t.teams[k].members <= accounts
  {
    var parsed := SolverOutput.ParseOutput(output, accounts);
    var t := StartRun(s, id, config, parsed.teams);
    forall k | |s.teams| <= k < |t.teams|
      ensures t.teams[k].members <= accounts
    {
      assert t.teams[k] == TeamRow(id, parsed.teams[k - |s.teams|]);
    }
    t
  }

  lemma StartRunValid(s: SpaceState, id: nat, config: SolverInput.RunConfig, teams: seq<set<string>>)
    requires Valid(s)
    requires !HasId(s.masters, id)
    ensures Valid(StartRun(s, id, config, teams))
    ensures HasId(StartRun(s, id, config, teams).masters, id)
  {
    var t := StartRun(s, id, config, teams);
    var n := |s.masters|;
    assert t.masters[n].id == id;
    forall k | 0 <= k < |t.teams|
      ensures HasId(t.masters, t.teams[k].master)
    {
      if k < |s.teams| {
        var i :| 0 <= i < n && s.masters[i].id == s.teams[k].master;
        assert t.masters[i] == s.masters[i];
      }
    }
    forall i, j | 0 <= i < j < |t.masters|
      ensures t.masters[i].id != t.masters[j].id
    {
      if j == n {
        assert t.masters[i] == s.masters[i];
      } else {
        assert t.masters[i] == s.masters[i] && t.masters[j] == s.masters[j];
      }
    }
  }

  // ---------------------------------------------------------------------------
  // Finalising
  // ---------------------------------------------------------------------------

  /** `request.POST.get(str(id), False)` is truthy: the field is present and not empty. */
  predicate Selected(post: map<string, string>, id: nat)
  {
    NatToString(id) in post && post[NatToString(id)] != ""
  }

  /** `masters[k]` is selected and no MasterTeam after it is. */
  predicate LastSelected(masters: seq<MasterTeam>, post: map<string, string>, k: int)
  {
    && 0 <= k < |masters|
    && Selected(post, masters[k].id)
    && forall j :: k < j < |masters| ==> !Selected(post, masters[j].id)
  }

  /** The position of `finalized_team` in `masters`: the last selected one, or -1 when none is. */
  function ChosenIndex(masters: seq<MasterTeam>, post: map<string, string>): (k: int)
    ensures -1 <= k < |masters|
    ensures k == -1 <==> forall i :: 0 <= i < |masters| ==> !Selected(post, masters[i].id)
    ensures k >= 0 ==> LastSelected(masters, post, k)
  {
    if |masters| == 0 then -1
    else
      var n := |masters| - 1;
      var front := masters[..n];
      if Selected(post, masters[n].id) then n
      else
        var k := ChosenIndex(front, post);
        assert forall i :: 0 <= i < n ==> front[i] == masters[i];
        k
  }

  /** `finalized_team` after the first loop of lines 752-757: the last MasterTeam, in iteration
      order, whose field was posted. */
  function Chosen(masters: seq<MasterTeam>, post: map<string, string>): (chosen: Option<MasterTeam>)
    ensures chosen.None? <==> forall i :: 0 <= i < |masters| ==> !Selected(post, masters[i].id)
    ensures chosen.Some? ==> exists k :: LastSelected(masters, post, k) && masters[k] == chosen.value
  {
    var k := ChosenIndex(masters, post);
    if k < 0 then None else Some(masters[k])
  }

  /** The MasterTeams other than the chosen one are deleted. */
  function KeepMaster(masters: seq<MasterTeam>, id: nat): (kept: seq<MasterTeam>)
    ensures forall m :: m in kept <==> m in masters && m.id == id
  {
    if |masters| == 0 then []
    else (if masters[0].id == id then [masters[0]] else []) + KeepMaster(masters[1..], id)
  }

  /** Deleting a MasterTeam deletes its teams. */
  function KeepTeams(teams: seq<TeamRow>, id: nat): (kept: seq<TeamRow>)
    ensures forall r :: r in kept <==> r in teams && r.master == id
  {
    if |teams| == 0 then []
    else (if teams[0].master == id then [teams[0]] else []) + KeepTeams(teams[1..], id)
  }

  /** Lines 750-763: with a selection, only the chosen MasterTeam and its teams are left and
      `teams_decided` is set; without one, nothing changes. A posted id that matches no MasterTeam
      of the space counts as no selection. */
  function Finalize(s: SpaceState, post: map<string, string>): (t: SpaceState)
    ensures Chosen(s.masters, post).None? ==> t == s
    ensures Chosen(s.masters, post).Some? ==>
      var id := Chosen(s.masters, post).value.id;
      && t.teamsDecided
      && (forall m :: m in t.masters <==> m in s.masters && m.id == id)
      && (forall r :: r in t.teams <==> r in s.teams && r.master == id)
  {
    match Chosen(s.masters, post)
    case None => s
    case Some(finalized) =>
      SpaceState(KeepMaster(s.masters, finalized.id), KeepTeams(s.teams, finalized.id), true)
  }

  /** With unique ids, exactly the chosen MasterTeam survives. */
  lemma {:induction false} KeepMasterUnique(masters: seq<MasterTeam>, k: nat)
    requires DistinctIds(masters)
    requires k < |masters|
    ensures KeepMaster(masters, masters[k].id) == [masters[k]]
    decreases |masters|
  {
    if k == 0 {
      KeepMasterAbsent(masters[1..], masters[0].id);
    } else {
      assert masters[1..][k - 1] == masters[k];
      KeepMasterUnique(masters[1..], k - 1);
      assert masters[0].id != masters[k].id;
    }
  }

  lemma {:induction false} KeepMasterAbsent(masters: seq<MasterTeam>, id: nat)
    requires forall i :: 0 <= i < |masters| ==> masters[i].id != id
    ensures KeepMaster(masters, id) == []
    decreases |masters|
  {
    if |masters| > 0 {
      KeepMasterAbsent(masters[1..], id);
    }
  }

  /** Finalising keeps the invariant, and with a selection leaves exactly the chosen MasterTeam. */
  lemma FinalizeValid(s: SpaceState, post: map<string, string>)
    requires Valid(s)
    ensures Valid(Finalize(s, post))
    ensures Chosen(s.masters, post).Some? ==> Finalize(s, post).masters == [Chosen(s.masters, post).value]
  {
    var chosen := Chosen(s.masters, post);
    if chosen.Some? {
      var k :| LastSelected(s.masters, post, k) && s.masters[k] == chosen.value;
      KeepMasterUnique(s.masters, k);
      var t := Finalize(s, post);
      forall q | 0 <= q < |t.teams|
        ensures HasId(t.masters, t.teams[q].master)
      {
        assert t.teams[q] in t.teams;
        assert t.masters[0].id == chosen.value.id;
      }
    }
  }

  /** Posting the same form again changes nothing more. */
  lemma FinalizeIdempotent(s: SpaceState, post: map<string, string>)
    requires Valid(s)
    ensures Finalize(Finalize(s, post), post) == Finalize(s, post)
  {
    FinalizeValid(s, post);
    var chosen := Chosen(s.masters, post);
    if chosen.Some? {
      var t := Finalize(s, post);
      var id := chosen.value.id;
      assert t.masters == [chosen.value];
      assert Chosen(t.masters, post) == chosen;
      KeepMasterUnique(t.masters, 0);
      KeepTeamsAll(t.teams, id);
    }
  }

  lemma {:induction false} KeepTeamsAll(teams: seq<TeamRow>, id: nat)
    requires forall r :: r in teams ==> r.master == id
    ensures KeepTeams(teams, id) == teams
    decreases |teams|
  {
    if |teams| > 0 {
      assert teams[0] in teams;
      assert forall r :: r in teams[1..] ==> r in teams;
      KeepTeamsAll(teams[1..], id);
      assert teams == [teams[0]] + teams[1..];
    }
  }

  /** A form naming exactly one MasterTeam of the space leaves exactly that MasterTeam. */
  lemma FinalizeSingle(s: SpaceState, k: nat, value: string)
    requires Valid(s)
    requires k < |s.masters|
    requires value != ""
    ensures var t := Finalize(s, map[NatToString(s.masters[k].id) := value]);
      t.masters == [s.masters[k]] && t.teamsDecided
  {
    var post := map[NatToString(s.masters[k].id) := value];
    forall j | 0 <= j < |s.masters| && j != k
      ensures !Selected(post, s.masters[j].id)
    {
      if NatToString(s.masters[j].id) in post {
        NatToStringInjective(s.masters[j].id, s.masters[k].id);
      }
    }
    assert Selected(post, s.masters[k].id);
    FinalizeValid(s, post);
    var c := Chosen(s.masters, post).value;
    var q :| LastSelected(s.masters, post, q) && s.masters[q] == c;
    assert q == k;
  }

  /** A run after the teams were decided reopens the decision, keeping the finalised grouping. */
  lemma RunAfterFinalize(s: SpaceState, post: map<string, string>, id: nat, config: SolverInput.RunConfig, teams: seq<set<string>>)
    requires Valid(s)
    requires Chosen(s.masters, post).Some?
    requires id != Chosen(s.masters, post).value.id
    ensures var f := Finalize(s, post);
      var t := StartRun(f, id, config, teams);
      && f.teamsDecided && !t.teamsDecided
      && t.masters == [Chosen(s.masters, post).value, MasterTeam(id, config.groupSize, true, config.algorithmIndex)]
  {
    FinalizeValid(s, post);
    var f := Finalize(s, post);
    assert !HasId(f.masters, id);
  }
}

=== FILE: models.dfy ===
/**
 The records of main/models.py that the team-formation logic touches, and the
 display helpers defined on them: `MasterTeam.algorithm_type`, `Team.__str__`,
 `Preferences.preferences_as_names` and `Preferences.project_preferences_as_names`.

 Database lookups become parameters: a `Directory` stands for the Member table
 (every Member row, keyed by username) and a set of names for the Project table.
 */
module Models {
  import opened PyStr

  /** Every Member row, keyed by username, mapped to the member's display name. */
  type Directory = map<string, string>

  /** A Member row: the two fields the core reads. */
  datatype Member = Member(username: string, name: string)

  /** The display name given to an account that has been invited but not registered. */
  const NotRegistered := "Account in Progress"

  /** A MasterTeam row: one candidate grouping produced by one run of the solver. */
  datatype MasterTeam = MasterTeam(id: nat, numberOfMembers: int, iterativeSoulmates: bool, algorithmIndex: int)

  /** The sentinel tokens a peer ranking may contain. */
  const MyselfToken := "@myself@"
  const TeamToken := "@team@"

  const NoPreferences := "No preferences submitted."

  // ---------------------------------------------------------------------------
  // MasterTeam.algorithm_type
  // ---------------------------------------------------------------------------

  /** The label of the solver variant a MasterTeam was produced with. */
  function AlgorithmType(index: int): (info: string)
    ensures info != "" <==> 0 <= index <= 2
    ensures index == 0 ==> info == "Random Serial Dictatorship"
    ensures index == 1 ==> info == "Heuristic"
    ensures index == 2 ==> info == "Rotational Proposer Mechanism"
  {
    if index == 0 then "Random Serial Dictatorship"
    else if index == 1 then "Heuristic"
    else if index == 2 then "Rotational Proposer Mechanism"
    else ""
  }

  /** The three variants are told apart by their labels. */
  lemma AlgorithmTypeInjective(i: int, j: int)
    requires AlgorithmType(i) != ""
    requires AlgorithmType(i) == AlgorithmType(j)
    ensures i == j
  {
  }

  // ---------------------------------------------------------------------------
  // Team.__str__
  // ---------------------------------------------------------------------------

  /** A team rendered as its members' names, `names` being the member rows in query order:
      each name followed by ", ", then the last two characters cut off. */
  function TeamString(names: seq<string>): (r: string)
    ensures |names| == 0 ==> r == ""
    ensures |names| >= 1 ==> r == Join(names, ", ")
  {
    DropLastTerminated(names, ", ");
    DropLast(Terminated(names, ", "), 2)
  }

  // ---------------------------------------------------------------------------
  // Preferences.preferences_as_names
  // ---------------------------------------------------------------------------

  /** The label of one counted token: a known username first, then the two sentinels. */
  function Label(token: string, dir: Directory): string
  {
    if token in dir then dir[token]
    else if token == MyselfToken then "Rather be by Myself"
    else if token == TeamToken then "Rather be on any Team"
    else "Invalid User"
  }

  /** The tokens the loop counts: those of length at least 3, in token order. */
  function LongTokens(tokens: seq<string>): (long: seq<string>)
    ensures |long| <= |tokens|
    ensures forall t :: t in long <==> t in tokens && |t| >= 3
    ensures (forall i :: 0 <= i < |tokens| ==> |tokens[i]| >= 3) ==> long == tokens
  {
    if |tokens| == 0 then []
    else
      assert tokens == [tokens[0]] + tokens[1..];
      (if |tokens[0]| >= 3 then [tokens[0]] else []) + LongTokens(tokens[1..])
  }

  /** Filtering keeps the order of the tokens: the counted tokens of two blocks are those of the
      first block followed by those of the second. */
  lemma {:induction false} LongTokensAppend(a: seq<string>, b: seq<string>)
    ensures LongTokens(a + b) == LongTokens(a) + LongTokens(b)
    decreases |a|
  {
    if |a| == 0 {
      assert a + b == b;
    } else {
      assert (a + b)[0] == a[0];
      assert (a + b)[1..] == a[1..] + b;
      LongTokensAppend(a[1..], b);
    }
  }

  /** The labels of the tokens of length at least 3, in token order; shorter tokens are skipped. */
  function Labels(tokens: seq<string>, dir: Directory): (labels: seq<string>)
    ensures |labels| <= |tokens|
    ensures (forall i :: 0 <= i < |tokens| ==> |tokens[i]| < 3) <==> labels == []
  {
    if |tokens| == 0 then []
    else if |tokens[0]| >= 3 then [Label(tokens[0], dir)] + Labels(tokens[1..], dir)
    else Labels(tokens[1..], dir)
  }

  /** The label of every token, position by position. */
  function LabelEach(tokens: seq<string>, dir: Directory): (labels: seq<string>)
    ensures |labels| == |tokens|
    ensures forall i :: 0 <= i < |tokens| ==> labels[i] == Label(tokens[i], dir)
  {
    seq(|tokens|, i requires 0 <= i < |tokens| => Label(tokens[i], dir))
  }

  /** The labels shown are the labels of the counted tokens, one per token and in token order. */
  lemma {:induction false} LabelsOfLongTokens(tokens: seq<string>, dir: Directory)
    ensures Labels(tokens, dir) == LabelEach(LongTokens(tokens), dir)
    decreases |tokens|
  {
    if |tokens| > 0 {
      var rest := tokens[1..];
      LabelsOfLongTokens(rest, dir);
      if |tokens[0]| >= 3 {
        assert LongTokens(tokens) == [tokens[0]] + LongTokens(rest);
        LabelEachCons(tokens[0], LongTokens(rest), dir);
      } else {
        assert LongTokens(tokens) == LongTokens(rest);
      }
    }
  }

  lemma LabelEachCons(t: string, rest: seq<string>, dir: Directory)
    ensures LabelEach([t] + rest, dir) == [Label(t, dir)] + LabelEach(rest, dir)
  {
  }

  /** `preferences_as_names` as written: the accumulated "label, " text is shown without its final
      ", " only when it is longer than 3 characters. */
  function PreferencesAsNames(membersRanking: string, dir: Directory): (r: string)
    ensures var labels := Labels(Split(membersRanking, ' '), dir);
      && (labels == [] ==> r == NoPreferences)
      && (|labels| >= 2 ==> r == Join(labels, ", "))
      && (|labels| == 1 && |labels[0]| >= 2 ==> r == labels[0])
      && (|labels| == 1 && |labels[0]| < 2 ==> r == NoPreferences)
  {
    var labels := Labels(Split(membersRanking, ' '), dir);
    var raw := Terminated(labels, ", ");
    DropLastTerminated(labels, ", ");
    if |raw| > 3 then DropLast(raw, 2) else NoPreferences
  }

  /** With every member name at least two characters long, "No preferences submitted." appears
      exactly when no token of length 3 or more is present, and otherwise the labels are shown
      joined by ", ". */
  lemma PreferencesAsNamesShape(membersRanking: string, dir: Directory)
    requires forall u :: u in dir ==> |dir[u]| >= 2
    ensures var tokens := Split(membersRanking, ' ');
      && ((forall i :: 0 <= i < |tokens| ==> |tokens[i]| < 3) ==> PreferencesAsNames(membersRanking, dir) == NoPreferences)
      && ((exists i :: 0 <= i < |tokens| && |tokens[i]| >= 3) ==>
            PreferencesAsNames(membersRanking, dir) == Join(Labels(tokens, dir), ", "))
  {
    var tokens := Split(membersRanking, ' ');
    var labels := Labels(tokens, dir);
    if forall i :: 0 <= i < |tokens| ==> |tokens[i]| < 3 {
      assert labels == [];
    } else if |labels| == 1 {
      LabelsAreLong(tokens, dir);
      assert |labels[0]| >= 2;
    }
  }

  /** Every label is at least two characters long when every member name is. */
  lemma {:induction false} LabelsAreLong(tokens: seq<string>, dir: Directory)
    requires forall u :: u in dir ==> |dir[u]| >= 2
    ensures forall i :: 0 <= i < |Labels(tokens, dir)| ==> |Labels(tokens, dir)[i]| >= 2
    decreases |tokens|
  {
    if |tokens| > 0 {
      LabelsAreLong(tokens[1..], dir);
    }
  }

  /** A member row whose username is a sentinel is found before the sentinel is recognised. */
  lemma UsernameShadowsSentinel(dir: Directory)
    requires MyselfToken in dir && |dir[MyselfToken]| >= 2
    ensures PreferencesAsNames(MyselfToken + " ", dir) == dir[MyselfToken]
  {
    SplitTerminatedRoundTrip([MyselfToken], ' ');
    assert Terminated([MyselfToken], " ") == MyselfToken + " ";
    var tokens := [MyselfToken] + [""];
    assert Split(MyselfToken + " ", ' ') == tokens;
    assert tokens[1..] == [""];
    assert Labels([""], dir) == [];
    assert Labels(tokens, dir) == [dir[MyselfToken]];
  }

  /** The threshold `> 3` as written hides a single counted preference whose label has at most one
      character: a ranking naming the member "abc", whose display name is "A", is shown as
      "No preferences submitted." */
  lemma ShortNameHidden()
    ensures Labels(Split("abc ", ' '), map["abc" := "A"]) == ["A"]
    ensures PreferencesAsNames("abc ", map["abc" := "A"]) == NoPreferences
  {
    SplitTerminatedRoundTrip(["abc"], ' ');
    assert Terminated(["abc"], " ") == "abc ";
  }

  /** The evident intent of the threshold: the labels are shown whenever there is at least one. */
  function PreferencesAsNamesIntended(membersRanking: string, dir: Directory): (r: string)
    ensures var labels := Labels(Split(membersRanking, ' '), dir);
      && (labels == [] ==> r == NoPreferences)
      && (labels != [] ==> r == Join(labels, ", "))
  {
    var labels := Labels(Split(membersRanking, ' '), dir);
    var raw := Terminated(labels, ", ");
    DropLastTerminated(labels, ", ");
    if raw != "" then DropLast(raw, 2) else NoPreferences
  }

  // ---------------------------------------------------------------------------
  // Preferences.project_preferences_as_names
  // ---------------------------------------------------------------------------

  /** The tokens that name an existing project, in order, repetitions kept. */
  function Recognised(tokens: seq<string>, projects: set<string>): (r: seq<string>)
    ensures |r| <= |tokens|
    ensures forall x :: x in r <==> x in tokens && x in projects
  {
    if |tokens| == 0 then []
    else if tokens[0] in projects then [tokens[0]] + Recognised(tokens[1..], projects)
    else Recognised(tokens[1..], projects)
  }

  /** The loop of `project_preferences_as_names`: a recognised token gets the current counter,
      overwriting an earlier entry, and only then is the counter advanced. */
  function Points(tokens: seq<string>, projects: set<string>, counter: nat, acc: map<string, nat>): (m: map<string, nat>)
    ensures m.Keys == acc.Keys + (set x | x in Recognised(tokens, projects))
    decreases |tokens|
  {
    if |tokens| == 0 then acc
    else if tokens[0] in projects then Points(tokens[1..], projects, counter + 1, acc[tokens[0] := counter])
    else Points(tokens[1..], projects, counter, acc)
  }

  /** `p` is the position of the last occurrence of `k` in `s`. */
  predicate LastAt(s: seq<string>, k: string, p: int)
  {
    0 <= p < |s| && s[p] == k && forall j :: p < j < |s| ==> s[j] != k
  }

  /** No name occurs twice. */
  predicate Distinct(s: seq<string>)
  {
    forall i, j :: 0 <= i < j < |s| ==> s[i] != s[j]
  }

  lemma LastAtCons(x: string, rest: seq<string>, k: string, p: int)
    ensures LastAt(rest, k, p) ==> LastAt([x] + rest, k, p + 1)
    ensures k == x && k !in rest ==> LastAt([x] + rest, k, 0)
  {
    var s := [x] + rest;
    if LastAt(rest, k, p) {
      forall j | p + 1 < j < |s|
        ensures s[j] != k
      {
        assert s[j] == rest[j - 1];
      }
    }
    if k == x && k !in rest {
      forall j | 0 < j < |s|
        ensures s[j] != k
      {
        assert s[j] == rest[j - 1];
      }
    }
  }

  /** What `PointsLastOccurrence` promises of one call of `Points`. */
  predicate PointsInvariant(tokens: seq<string>, projects: set<string>, counter: nat, acc: map<string, nat>, m: map<string, nat>)
  {
    var rec := Recognised(tokens, projects);
    && m.Keys == acc.Keys + (set x | x in rec)
    && (forall k :: k in m && k !in rec ==> m[k] == acc[k])
    && (forall k :: k in rec ==> m[k] >= counter && LastAt(rec, k, m[k] - counter))
  }

  /** Entries of `acc` that are not recognised again keep their value; a recognised name gets the
      counter value of its LAST recognised occurrence. */
  lemma {:induction false} PointsLastOccurrence(tokens: seq<string>, projects: set<string>, counter: nat, acc: map<string, nat>)
    ensures PointsInvariant(tokens, projects, counter, acc, Points(tokens, projects, counter, acc))
    decreases |tokens|
  {
    if |tokens| > 0 {
      if tokens[0] in projects {
        var acc' := acc[tokens[0] := counter];
        PointsLastOccurrence(tokens[1..], projects, counter + 1, acc');
        PointsStep(tokens, projects, counter, acc, Points(tokens[1..], projects, counter + 1, acc'));
      } else {
        PointsLastOccurrence(tokens[1..], projects, counter, acc);
        PointsSkip(tokens, projects, counter, acc, Points(tokens[1..], projects, counter, acc));
      }
    }
  }

  /** An unrecognised token in front changes nothing. */
  lemma PointsSkip(tokens: seq<string>, projects: set<string>, counter: nat, acc: map<string, nat>, m: map<string, nat>)
    requires |tokens| > 0 && tokens[0] !in projects
    requires PointsInvariant(tokens[1..], projects, counter, acc, m)
    ensures PointsInvariant(tokens, projects, counter, acc, m)
  {
    assert Recognised(tokens, projects) == Recognised(tokens[1..], projects);
  }

  /** One recognised token in front: its entry is the counter unless a later occurrence overrides it. */
  lemma PointsStep(tokens: seq<string>, projects: set<string>, counter: nat, acc: map<string, nat>, m: map<string, nat>)
    requires |tokens| > 0 && tokens[0] in projects
    requires PointsInvariant(tokens[1..], projects, counter + 1, acc[tokens[0] := counter], m)
    ensures PointsInvariant(tokens, projects, counter, acc, m)
  {
    var rest := Recognised(tokens[1..], projects);
    var rec := Recognised(tokens, projects);
    assert rec == [tokens[0]] + rest;
    forall k | k in m && k !in rec
      ensures m[k] == acc[k]
    {
      assert k !in rest && k != tokens[0];
    }
    forall k | k in rec
      ensures m[k] >= counter && LastAt(rec, k, m[k] - counter)
    {
      if k in rest {
        LastAtCons(tokens[0], rest, k, m[k] - counter - 1);
      } else {
        LastAtCons(tokens[0], rest, k, 0);
      }
    }
  }

  /** The pieces of `s.split(" ")[:-1]`: every piece but the last. */
  function Kept(projectsRanking: string): (pieces: seq<string>)
    ensures |pieces| == |Split(projectsRanking, ' ')| - 1
    ensures pieces == Split(projectsRanking, ' ')[..|Split(projectsRanking, ' ')| - 1]
  {
    var all := Split(projectsRanking, ' ');
    all[..|all| - 1]
  }

  /** `project_preferences_as_names`: split on one space, drop the last piece, and give the
      recognised project names the points 1, 2, 3, ... in order of appearance. */
  function ProjectPreferencesAsNames(projectsRanking: string, projects: set<string>): (points: map<string, nat>)
    ensures points.Keys == (set x | x in Recognised(Kept(projectsRanking), projects))
  {
    Points(Kept(projectsRanking), projects, 1, map[])
  }

  /** Every recognised project gets the points of its last recognised occurrence, a value between 1
      and the number of recognised tokens; the counter does not advance on other tokens. */
  lemma ProjectPointsLastOccurrence(projectsRanking: string, projects: set<string>)
    ensures var rec := Recognised(Kept(projectsRanking), projects);
      var points := ProjectPreferencesAsNames(projectsRanking, projects);
      forall k :: k in points ==> 1 <= points[k] <= |rec| && LastAt(rec, k, points[k] - 1)
  {
    PointsLastOccurrence(Kept(projectsRanking), projects, 1, map[]);
  }

  /** When the recognised tokens are all different, the i-th of them gets exactly i + 1 points. */
  lemma PointsArePositions(tokens: seq<string>, projects: set<string>)
    ensures var rec := Recognised(tokens, projects);
      var points := Points(tokens, projects, 1, map[]);
      Distinct(rec) ==> forall i :: 0 <= i < |rec| ==> rec[i] in points && points[rec[i]] == i + 1
  {
    var rec := Recognised(tokens, projects);
    var points := Points(tokens, projects, 1, map[]);
    PointsLastOccurrence(tokens, projects, 1, map[]);
    assert PointsInvariant(tokens, projects, 1, map[], points);
    if Distinct(rec) {
      forall i | 0 <= i < |rec|
        ensures rec[i] in points && points[rec[i]] == i + 1
      {
        var k := rec[i];
        assert k in rec;
        DistinctLastAt(rec, i, points[k] - 1);
      }
    }
  }

  /** In a list without repetitions, the last position of the i-th name is i. */
  lemma DistinctLastAt(s: seq<string>, i: int, p: int)
    requires Distinct(s)
    requires 0 <= i < |s|
    requires LastAt(s, s[i], p)
    ensures p == i
  {
  }

  /** When the recognised names are all different, the i-th of them gets exactly i + 1 points. */
  lemma ProjectPointsArePositions(projectsRanking: string, projects: set<string>)
    ensures var rec := Recognised(Kept(projectsRanking), projects);
      Distinct(rec) ==>
        forall i :: 0 <= i < |rec| ==> ProjectPreferencesAsNames(projectsRanking, projects)[rec[i]] == i + 1
  {
    PointsArePositions(Kept(projectsRanking), projects);
  }

  /** The reader that matches the stored format ", ": split on ", " and keep every piece, then give
      the recognised project names the points 1, 2, 3, ... in order of appearance. */
  function ProjectPreferencesIntended(projectsRanking: string, projects: set<string>): (points: map<string, nat>)
    ensures points.Keys == (set x | x in Recognised(SplitOn(projectsRanking, ", "), projects))
  {
    Points(SplitOn(projectsRanking, ", "), projects, 1, map[])
  }
}

=== FILE: pystr.dfy ===
/**
 The handful of Python string operations the application's code relies on,
 with their exact Python semantics: `s.split(c)` with an explicit one-character
 separator, slices that clamp instead of failing, accumulation of
 `piece + sep` in a loop, and `str(n)` for integers.
 */
module PyStr {

  /** Python's `s.split(c)`: every occurrence of `c` splits, empty pieces are kept,
      and the empty string splits into one empty piece. */
  function Split(s: string, c: char): (parts: seq<string>)
    ensures |parts| >= 1
    ensures forall i :: 0 <= i < |parts| ==> c !in parts[i]
    ensures |parts| == 1 <==> c !in s
    ensures c !in s ==> parts == [s]
    decreases |s|
  {
    if |s| == 0 then [""]
    else
      assert s == [s[0]] + s[1..];
      if s[0] == c then [""] + Split(s[1..], c)
      else
        var rest := Split(s[1..], c);
        [[s[0]] + rest[0]] + rest[1..]
  }

  /** The reference join: pieces separated by `sep`, nothing before or after. */
  function Join(parts: seq<string>, sep: string): string
  {
    if |parts| == 0 then ""
    else if |parts| == 1 then parts[0]
    else parts[0] + sep + Join(parts[1..], sep)
  }

  /** Joining a piece in front of at least one more piece puts the separator between them. */
  lemma JoinCons(x: string, rest: seq<string>, sep: string)
    requires |rest| >= 1
    ensures Join([x] + rest, sep) == x + sep + Join(rest, sep)
  {
    assert ([x] + rest)[1..] == rest;
  }

  /** What the loop `acc += piece + sep` leaves behind: every piece followed by `sep`. */
  function Terminated(parts: seq<string>, sep: string): (r: string)
    ensures |r| >= |parts| * |sep|
  {
    if |parts| == 0 then "" else parts[0] + sep + Terminated(parts[1..], sep)
  }

  /** The accumulation of three and of four pieces, written out. */
  lemma ThreeTerminated(a: string, b: string, c: string, sep: string)
    ensures Terminated([a, b, c], sep) == a + sep + b + sep + c + sep
  {
    var t := [a, b, c];
    assert t[1..] == [b, c] && t[1..][1..] == [c] && t[1..][1..][1..] == [];
    assert Terminated([c], sep) == c + sep + "";
    assert c + sep + "" == c + sep;
    assert Terminated([b, c], sep) == b + sep + (c + sep);
  }
  lemma FourTerminated(a: string, b: string, c: string, d: string, sep: string)
    ensures Terminated([a, b, c, d], sep) == a + sep + b + sep + c + sep + d + sep
  {
    var t := [a, b, c, d];
    assert t[1..] == [b, c, d];
    ThreeTerminated(b, c, d, sep);
  }
  /** The pieces of every string of `parts`, split on `c`, in order. */
  function SplitEach(parts: seq<string>, c: char): seq<string>
  {
    if |parts| == 0 then [] else Split(parts[0], c) + SplitEach(parts[1..], c)
  }

  /** Python's `s[:-k]`: the last `k` characters removed, or "" when there are fewer. */
  function DropLast(s: string, k: nat): (r: string)
    ensures |s| >= k ==> |r| == |s| - k && r == s[..|s| - k]
    ensures |s| < k ==> r == ""
  {
    if |s| >= k then s[..|s| - k] else ""
  }

  /** Python's `s[k:]`: everything from index `k` on, or "" when `s` is shorter. */
  function From(s: string, k: nat): (r: string)
    ensures |s| >= k ==> r == s[k..]
    ensures |s| < k ==> r == ""
  {
    if |s| >= k then s[k..] else ""
  }

  /** Python's `s[1:-1]`: first and last character removed, "" for strings shorter than 2. */
  function Inner(s: string): (r: string)
    ensures |s| >= 2 ==> r == s[1..|s| - 1]
    ensures |s| < 2 ==> r == ""
  {
    if |s| >= 2 then s[1..|s| - 1] else ""
  }

  /** Python's `s[0:2] == p` for a two-character `p`. */
  predicate StartsWith2(s: string, p: string)
    requires |p| == 2
  {
    |s| >= 2 && s[..2] == p
  }

  predicate IsDigit(ch: char)
  {
    '0' <= ch <= '9'
  }

  function DigitChar(d: nat): (ch: char)
    requires d < 10
    ensures IsDigit(ch)
    ensures ch as int - '0' as int == d
  {
    "0123456789"[d]
  }

  /** Python's `str(n)` for a non-negative integer: decimal digits, no leading zeros. */
  function NatToString(n: nat): (r: string)
    ensures |r| >= 1
    ensures forall i :: 0 <= i < |r| ==> IsDigit(r[i])
    ensures n >= 10 ==> r[0] != '0'
    decreases n
  {
    if n < 10 then [DigitChar(n)] else NatToString(n / 10) + [DigitChar(n % 10)]
  }

  /** Python's `str(i)` for any integer: a minus sign before the digits of a negative value. */
  function IntToString(i: int): (r: string)
    ensures |r| >= 1
    ensures ' ' !in r && ',' !in r
    ensures i >= 0 ==> r == NatToString(i)
  {
    if i < 0 then "-" + NatToString(-i) else NatToString(i)
  }

  /** Reads back a string of decimal digits: the inverse of `NatToString`. */
  function ParseNat(s: string): nat
  {
    if |s| == 0 then 0
    else
      var d := s[|s| - 1] as int - '0' as int;
      ParseNat(s[..|s| - 1]) * 10 + (if 0 <= d < 10 then d else 0)
  }

  lemma {:induction false} ParseNatToString(n: nat)
    ensures ParseNat(NatToString(n)) == n
    decreases n
  {
    if n >= 10 {
      var s := NatToString(n);
      assert s[..|s| - 1] == NatToString(n / 10);
      ParseNatToString(n / 10);
    }
  }

  /** Distinct numbers render as distinct strings. */
  lemma NatToStringInjective(m: nat, n: nat)
    requires NatToString(m) == NatToString(n)
    ensures m == n
  {
    ParseNatToString(m);
    ParseNatToString(n);
  }

  lemma NatToStringHasNoSeparator(n: nat)
    ensures ' ' !in NatToString(n) && ',' !in NatToString(n)
  {
    var s := NatToString(n);
    assert forall i :: 0 <= i < |s| ==> IsDigit(s[i]);
  }

  /** Splitting at a separator character splits the two sides independently. */
  lemma {:induction false} SplitConcat(a: string, b: string, c: char)
    ensures Split(a + [c] + b, c) == Split(a, c) + Split(b, c)
    decreases |a|
  {
    if |a| == 0 {
      assert a + [c] + b == [c] + b;
      assert ([c] + b)[1..] == b;
    } else {
      var s := a + [c] + b;
      assert s[0] == a[0];
      assert s[1..] == a[1..] + [c] + b;
      SplitConcat(a[1..], b, c);
    }
  }

  /** There is one more piece than there are separators. */
  lemma {:induction false} SplitCount(s: string, c: char)
    ensures |Split(s, c)| == multiset(s)[c] + 1
    decreases |s|
  {
    if |s| > 0 {
      SplitCount(s[1..], c);
      assert s == [s[0]] + s[1..];
      assert multiset(s) == multiset{s[0]} + multiset(s[1..]);
    }
  }

  /** A string without the separator is a single piece. */
  lemma {:induction false} SplitNoSeparator(s: string, c: char)
    requires c !in s
    ensures Split(s, c) == [s]
  {
  }

  /** Joining with `c` and splitting on `c` yields the pieces of every part, in order. */
  lemma {:induction false} SplitJoin(parts: seq<string>, c: char)
    requires |parts| >= 1
    ensures Split(Join(parts, [c]), c) == SplitEach(parts, c)
    decreases |parts|
  {
    if |parts| == 1 {
      assert SplitEach(parts, c) == Split(parts[0], c) + SplitEach([], c);
    } else {
      SplitConcat(parts[0], Join(parts[1..], [c]), c);
      SplitJoin(parts[1..], c);
    }
  }

  /** Pieces that never contain `c` are their own split. */
  lemma {:induction false} SplitEachNoSeparator(parts: seq<string>, c: char)
    requires forall i :: 0 <= i < |parts| ==> c !in parts[i]
    ensures SplitEach(parts, c) == parts
    decreases |parts|
  {
    if |parts| > 0 {
      SplitNoSeparator(parts[0], c);
      SplitEachNoSeparator(parts[1..], c);
      assert parts == [parts[0]] + parts[1..];
    }
  }

  /** Round trip: joining with `c` pieces free of `c`, then splitting on `c`, gives the pieces back. */
  lemma SplitJoinRoundTrip(parts: seq<string>, c: char)
    requires |parts| >= 1
    requires forall i :: 0 <= i < |parts| ==> c !in parts[i]
    ensures Split(Join(parts, [c]), c) == parts
  {
    SplitJoin(parts, c);
    SplitEachNoSeparator(parts, c);
  }

  /** A separator-terminated accumulation splits into the parts' pieces plus one trailing empty piece. */
  lemma {:induction false} SplitTerminated(parts: seq<string>, c: char)
    ensures Split(Terminated(parts, [c]), c) == SplitEach(parts, c) + [""]
    decreases |parts|
  {
    if |parts| > 0 {
      SplitConcat(parts[0], Terminated(parts[1..], [c]), c);
      SplitTerminated(parts[1..], c);
    }
  }

  /** Round trip for the accumulation: pieces free of `c` come back, followed by "". */
  lemma SplitTerminatedRoundTrip(parts: seq<string>, c: char)
    requires forall i :: 0 <= i < |parts| ==> c !in parts[i]
    ensures Split(Terminated(parts, [c]), c) == parts + [""]
  {
    SplitTerminated(parts, c);
    SplitEachNoSeparator(parts, c);
  }

  /** Joining the split pieces with the separator restores the string. */
  lemma {:induction false} JoinSplit(s: string, c: char)
    ensures Join(Split(s, c), [c]) == s
    decreases |s|
  {
    if |s| > 0 {
      var t := s[1..];
      var rest := Split(t, c);
      JoinSplit(t, c);
      assert s == [s[0]] + t;
      if s[0] == c {
        assert Split(s, c) == [""] + rest;
        JoinCons("", rest, [c]);
      } else {
        var head := [s[0]] + rest[0];
        assert Split(s, c) == [head] + rest[1..];
        if |rest| == 1 {
          assert rest == [rest[0]];
          assert Join([head], [c]) == head;
        } else {
          assert rest == [rest[0]] + rest[1..];
          JoinCons(rest[0], rest[1..], [c]);
          JoinCons(head, rest[1..], [c]);
        }
      }
    }
  }

  /** Stripping the final separator from the accumulation `acc += piece + sep` gives the join. */
  lemma {:induction false} DropLastTerminated(parts: seq<string>, sep: string)
    ensures |parts| >= 1 ==> DropLast(Terminated(parts, sep), |sep|) == Join(parts, sep)
    decreases |parts|
  {
    var t := Terminated(parts, sep);
    if |parts| == 0 {
    } else if |parts| == 1 {
      assert parts[1..] == [];
      assert Terminated(parts[1..], sep) == "";
      assert t == parts[0] + sep;
      assert t[..|t| - |sep|] == parts[0];
    } else {
      var rest := Terminated(parts[1..], sep);
      DropLastTerminated(parts[1..], sep);
      assert t == parts[0] + sep + rest;
      assert |rest| >= |sep|;
      assert t[..|t| - |sep|] == parts[0] + sep + rest[..|rest| - |sep|];
    }
  }

  /** The last piece of a split is a suffix of the string, preceded by the separator unless it is
      the whole string. */
  lemma {:induction false} LastPieceIsSuffix(s: string, c: char)
    ensures var parts := Split(s, c);
      var last := parts[|parts| - 1];
      && |last| <= |s|
      && s[|s| - |last|..] == last
      && (|last| < |s| ==> s[|s| - |last| - 1] == c)
    decreases |s|
  {
    if |s| > 0 {
      var t := s[1..];
      var rest := Split(t, c);
      LastPieceIsSuffix(t, c);
      var last := rest[|rest| - 1];
      assert t[|t| - |last|..] == s[|s| - |last|..];
      if |last| < |t| {
        assert s[|s| - |last| - 1] == t[|t| - |last| - 1];
      }
      var parts := Split(s, c);
      if s[0] == c {
        assert parts == [""] + rest;
        assert parts[|parts| - 1] == last;
      } else if |rest| == 1 {
        SplitNoSeparator(t, c);
        assert parts == [[s[0]] + t];
        assert s == [s[0]] + t;
      } else {
        assert parts == [[s[0]] + rest[0]] + rest[1..];
        assert parts[|parts| - 1] == last;
        assert c in t && c !in last;
        if |last| == |t| {
          assert false;
        }
      }
    }
  }

  // ---------------------------------------------------------------------------
  // Splitting on a separator of several characters
  // ---------------------------------------------------------------------------

  /** `sep` occurs somewhere in `s`. */
  predicate Occurs(sep: string, s: string)
    decreases |s|
  {
    |sep| <= |s| && (s[..|sep|] == sep || Occurs(sep, s[1..]))
  }

  /** Python's `s.split(sep)` for a non-empty separator: the leftmost occurrence splits first,
      occurrences do not overlap, empty pieces are kept, and a string without `sep` is one piece. */
  function SplitOn(s: string, sep: string): (parts: seq<string>)
    requires |sep| > 0
    ensures |parts| >= 1
    ensures !Occurs(sep, s) ==> parts == [s]
    decreases |s|
  {
    if |s| < |sep| then [s]
    else if s[..|sep|] == sep then [""] + SplitOn(s[|sep|..], sep)
    else
      var rest := SplitOn(s[1..], sep);
      assert !Occurs(sep, s) ==> rest == [s[1..]] && s == [s[0]] + s[1..];
      [[s[0]] + rest[0]] + rest[1..]
  }

  /** A piece free of a two-character separator whose characters differ, followed by the
      separator, splits off as the first piece: no occurrence can straddle the boundary. */
  lemma {:induction false} SplitOnConcat(a: string, b: string, sep: string)
    requires |sep| == 2 && sep[0] != sep[1]
    requires !Occurs(sep, a)
    ensures SplitOn(a + sep + b, sep) == [a] + SplitOn(b, sep)
    decreases |a|
  {
    var s := a + sep + b;
    if |a| == 0 {
      assert s[..2] == sep && s[2..] == b;
    } else {
      if |a| >= 2 {
        assert s[..2] == a[..2];
      } else {
        assert s[1] == sep[0];
      }
      assert s[..2] != sep;
      assert !Occurs(sep, a[1..]);
      assert s[1..] == a[1..] + sep + b;
      SplitOnConcat(a[1..], b, sep);
      assert [a[0]] + a[1..] == a;
    }
  }

  /** Splitting the join of pieces free of the separator gives the pieces back. */
  lemma {:induction false} SplitOnJoin(parts: seq<string>, sep: string)
    requires |sep| == 2 && sep[0] != sep[1]
    requires |parts| >= 1
    requires forall i :: 0 <= i < |parts| ==> !Occurs(sep, parts[i])
    ensures SplitOn(Join(parts, sep), sep) == parts
    decreases |parts|
  {
    if |parts| > 1 {
      var rest := parts[1..];
      SplitOnJoin(rest, sep);
      SplitOnConcat(parts[0], Join(rest, sep), sep);
      assert parts == [parts[0]] + rest;
    }
  }

  /** Joining the pieces of `s.split(sep)` with `sep` restores `s`. */
  lemma {:induction false} JoinSplitOn(s: string, sep: string)
    requires |sep| > 0
    ensures Join(SplitOn(s, sep), sep) == s
    decreases |s|
  {
    if |s| >= |sep| {
      if s[..|sep|] == sep {
        var t := s[|sep|..];
        JoinSplitOn(t, sep);
        JoinCons("", SplitOn(t, sep), sep);
        assert s == s[..|sep|] + t;
      } else {
        var t := s[1..];
        var rest := SplitOn(t, sep);
        JoinSplitOn(t, sep);
        assert s == [s[0]] + t;
        var head := [s[0]] + rest[0];
        assert SplitOn(s, sep) == [head] + rest[1..];
        if |rest| == 1 {
          assert rest == [rest[0]];
          assert Join([head], sep) == head;
        } else {
          assert rest == [rest[0]] + rest[1..];
          JoinCons(rest[0], rest[1..], sep);
          JoinCons(head, rest[1..], sep);
        }
      }
    }
  }
}

=== FILE: rank_preferences.dfy ===
/**
 What `rank_preferences_view` (main/views.py) stores when a member submits a
 ranking: the submitted list is serialised into the `members_ranking` or the
 `projects_ranking` text of the member's one Preferences row for the space.
 */
module RankPreferences {
  import opened Common
  import opened PyStr
  import opened Models
  import Functions

  /** A Preferences row of one space, keyed elsewhere by the member's username. */
  datatype Preferences = Preferences(projectsRanking: string, membersRanking: string)

  /** What an AJAX request posts: the category and the list decoded from its JSON field.
      `OtherCategory` is a missing or unknown category, for which nothing is decoded.
      `Undecodable` is a "project" or "peer" request whose field is missing or is not valid JSON,
      or a peer list holding a non-string: `simplejson.loads` or `peer.split` raises after the
      earlier row was deleted (main/views.py:490-492, 497, 506, 508), and without a transaction
      the deletion stands. */
  datatype Submission =
    | ProjectRanking(projects: seq<string>)
    | PeerRanking(peers: seq<string>)
    | OtherCategory
    | Undecodable

  // ---------------------------------------------------------------------------
  // Peer rankings
  // ---------------------------------------------------------------------------

  /** The last word of a peer entry: the last piece of `peer.split(" ")`; it ends the entry and is
      preceded by a space unless it is the whole entry. */
  function LastWord(peer: string): (w: string)
    ensures ' ' !in w
    ensures |w| <= |peer| && peer[|peer| - |w|..] == w
    ensures |w| < |peer| ==> peer[|peer| - |w| - 1] == ' '
  {
    LastPieceIsSuffix(peer, ' ');
    var parts := Split(peer, ' ');
    parts[|parts| - 1]
  }

  /** The token stored for one peer entry: the two sentinel entries end in "Myself" and "Team";
      any other entry ends in a bracketed username, whose brackets are cut off. */
  function PeerToken(peer: string): (token: string)
    ensures ' ' !in token
  {
    var w := LastWord(peer);
    if w == "Myself" then MyselfToken
    else if w == "Team" then TeamToken
    else Inner(w)
  }

  function PeerTokens(peers: seq<string>): (tokens: seq<string>)
    ensures |tokens| == |peers|
    ensures forall i :: 0 <= i < |peers| ==> tokens[i] == PeerToken(peers[i])
  {
    seq(|peers|, i requires 0 <= i < |peers| => PeerToken(peers[i]))
  }

  /** `members_ranking` as the view builds it: each entry's token followed by one space.
      Reading it back with `split(" ")` gives the tokens in submission order and one final
      empty piece. */
  function MembersRanking(peers: seq<string>): (ranking: string)
    ensures Split(ranking, ' ') == PeerTokens(peers) + [""]
  {
    var tokens := PeerTokens(peers);
    SplitTerminatedRoundTrip(tokens, ' ');
    Terminated(tokens, " ")
  }

  /** The last word of "<text> <word>" is the word when it has no space. */
  lemma {:induction false} LastWordAfterSpace(text: string, word: string)
    requires ' ' !in word
    ensures LastWord(text + " " + word) == word
  {
    assert text + " " + word == text + [' '] + word;
    SplitConcat(text, word, ' ');
    SplitNoSeparator(word, ' ');
  }

  /** An entry "<display name> (<username>)" is stored as the bare username. */
  lemma {:induction false} PeerTokenOfUser(display: string, username: string)
    requires ' ' !in username
    ensures PeerToken(display + " (" + username + ")") == username
  {
    var w := "(" + username + ")";
    assert display + " (" + username + ")" == display + " " + w;
    LastWordAfterSpace(display, w);
    assert w[0] == '(';
    assert w != "Myself" && w != "Team";
    assert w[1..|w| - 1] == username;
  }

  /** The sentinel entries, whose last word is "Myself" or "Team", are stored as the sentinel
      tokens. */
  lemma {:induction false} SentinelEntries(display: string, word: string)
    requires word == "Myself" || word == "Team"
    ensures PeerToken(display + " " + word) == (if word == "Myself" then MyselfToken else TeamToken)
  {
    LastWordAfterSpace(display, word);
  }

  // ---------------------------------------------------------------------------
  // Project rankings
  // ---------------------------------------------------------------------------

  /** `projects_ranking` as the view builds it: each name followed by ", ", the last two
      characters cut off. */
  function ProjectsRanking(projects: seq<string>): (ranking: string)
    ensures |projects| == 0 ==> ranking == ""
    ensures |projects| >= 1 ==> ranking == Join(projects, ", ")
  {
    DropLastTerminated(projects, ", ");
    DropLast(Terminated(projects, ", "), 2)
  }

  /** As written, the reader `project_preferences_as_names` never sees the first of two submitted
      projects under its own name: the stored text "A, B" splits on spaces into "A," and "B", and
      the last piece is dropped. Submitting ["Alpha", "Beta"] with both projects existing yields
      no points at all. */
  lemma ProjectRankingUnreadable(a: string, b: string, projects: set<string>)
    requires ' ' !in a && ' ' !in b
    requires a + "," !in projects
    ensures Kept(ProjectsRanking([a, b])) == [a + ","]
    ensures ProjectPreferencesAsNames(ProjectsRanking([a, b]), projects) == map[]
  {
    var r := ProjectsRanking([a, b]);
    JoinCons(a, [b], ", ");
    assert r == a + ", " + b;
    assert r == (a + ",") + [' '] + b;
    SplitConcat(a + ",", b, ' ');
    SplitNoSeparator(a + ",", ' ');
    SplitNoSeparator(b, ' ');
    assert Kept(r) == [a + ","];
    assert Recognised([a + ","], projects) == [];
  }

  /** Read back with the reader that splits on ", " and keeps every piece, a submitted list of
      distinct existing projects, none containing ", ", gives the i-th project i + 1 points and
      gives no other name any. An empty submission is stored as "", which is one empty piece. */
  lemma ProjectRankingRoundTrip(projects: seq<string>, existing: set<string>)
    requires forall i :: 0 <= i < |projects| ==> !Occurs(", ", projects[i]) && projects[i] in existing
    requires Distinct(projects)
    ensures var points := ProjectPreferencesIntended(ProjectsRanking(projects), existing);
      && (forall i :: 0 <= i < |projects| ==> projects[i] in points && points[projects[i]] == i + 1)
      && (|projects| >= 1 ==> forall k :: k in points <==> k in projects)
      && (projects == [] ==> points.Keys <= {""})
  {
    var ranking := ProjectsRanking(projects);
    if |projects| >= 1 {
      SplitOnJoin(projects, ", ");
      assert SplitOn(ranking, ", ") == projects;
      RecognisedAll(projects, existing);
      PointsArePositions(projects, existing);
    } else {
      assert !Occurs(", ", "");
      assert SplitOn(ranking, ", ") == [""];
    }
  }

  lemma {:induction false} RecognisedAll(tokens: seq<string>, projects: set<string>)
    requires forall i :: 0 <= i < |tokens| ==> tokens[i] in projects
    ensures Recognised(tokens, projects) == tokens
    decreases |tokens|
  {
    if |tokens| > 0 {
      RecognisedAll(tokens[1..], projects);
      assert tokens == [tokens[0]] + tokens[1..];
    }
  }

  // ---------------------------------------------------------------------------
  // Storing a submission
  // ---------------------------------------------------------------------------

  /** One submission of `username` to a space whose Preferences rows are `records`: any earlier
      row is deleted and a fresh one saved, so the category NOT submitted is reset to "". When the
      posted list cannot be decoded, the view raises between the deletion and the save, and the
      member is left with no row at all. */
  function Submit(records: map<string, Preferences>, username: string, submission: Submission): (r: map<string, Preferences>)
    ensures !submission.Undecodable? ==> r.Keys == records.Keys + {username}
    ensures submission.Undecodable? ==> r.Keys == records.Keys - {username}
    ensures forall u :: u in records && u != username ==> r[u] == records[u]
    ensures submission.PeerRanking? ==>
      && r[username].projectsRanking == ""
      && Split(r[username].membersRanking, ' ') == PeerTokens(submission.peers) + [""]
    ensures submission.ProjectRanking? ==>
      && r[username].membersRanking == ""
      && r[username].projectsRanking == ProjectsRanking(submission.projects)
    ensures submission.OtherCategory? ==> r[username] == Preferences("", "")
  {
    match submission
    case ProjectRanking(projects) => records[username := Preferences(ProjectsRanking(projects), "")]
    case PeerRanking(peers) => records[username := Preferences("", MembersRanking(peers))]
    case OtherCategory => records[username := Preferences("", "")]
    case Undecodable => records - {username}
  }

  // ---------------------------------------------------------------------------
  // The view
  // ---------------------------------------------------------------------------

  /** `rank_preferences_view` for the member named in the URL: a request from anyone else is
      redirected before anything is read, and a request that is not an AJAX request (`None`) only
      renders the page; the HTTP method is never looked at, so an AJAX GET is an `OtherCategory`
      submission. Only a request from the member themself changes their row. */
  function RankPreferencesView(records: map<string, Preferences>, request: Functions.Request, member: Member,
                               submission: Option<Submission>): (r: map<string, Preferences>)
    ensures request.username != member.username || submission.None? ==> r == records
    ensures r.Keys <= records.Keys + {request.username}
    ensures forall u :: u in records && u != request.username ==> u in r && r[u] == records[u]
    ensures request.username == member.username && submission.Some? ==>
      r == Submit(records, request.username, submission.value)
    ensures request.username == member.username && submission == Some(OtherCategory) ==>
      request.username in r && r[request.username] == Preferences("", "")
    ensures request.username == member.username && submission == Some(Undecodable) ==>
      request.username !in r
  {
    if !Functions.AuthenticateMember(request, member) then records
    else match submission
      case None => records
      case Some(s) => Submit(records, member.username, s)
  }

  /** What one request does to its requester's row: nothing (`None`), delete it (`Some(None)`), or
      store a fresh row (`Some(Some(row))`). */
  function Effect(request: Functions.Request, member: Member, submission: Option<Submission>): Option<Option<Preferences>>
  {
    if request.username != member.username || submission.None? then None
    else match submission.value
      case ProjectRanking(projects) => Some(Some(Preferences(ProjectsRanking(projects), "")))
      case PeerRanking(peers) => Some(Some(Preferences("", MembersRanking(peers))))
      case OtherCategory => Some(Some(Preferences("", "")))
      case Undecodable => Some(None)
  }

  function Apply(records: map<string, Preferences>, username: string, effect: Option<Option<Preferences>>): map<string, Preferences>
  {
    match effect
    case None => records
    case Some(None) => records - {username}
    case Some(Some(row)) => records[username := row]
  }

  /** The view touches only the requester's row, in the way its effect says. */
  lemma ViewIsEffect(records: map<string, Preferences>, request: Functions.Request, member: Member, submission: Option<Submission>)
    ensures RankPreferencesView(records, request, member, submission)
         == Apply(records, request.username, Effect(request, member, submission))
  {
  }

  /** Effects on two different rows commute. */
  lemma ApplyCommute(records: map<string, Preferences>, u1: string, e1: Option<Option<Preferences>>,
                     u2: string, e2: Option<Option<Preferences>>)
    requires u1 != u2
    ensures Apply(Apply(records, u1, e1), u2, e2) == Apply(Apply(records, u2, e2), u1, e1)
  {
  }

  /** Requests of two different users touch different rows, so the order in which the two are
      served does not matter. */
  lemma ViewsCommute(records: map<string, Preferences>, q1: Functions.Request, m1: Member, s1: Option<Submission>,
                     q2: Functions.Request, m2: Member, s2: Option<Submission>)
    requires q1.username != q2.username
    ensures RankPreferencesView(RankPreferencesView(records, q1, m1, s1), q2, m2, s2)
         == RankPreferencesView(RankPreferencesView(records, q2, m2, s2), q1, m1, s1)
  {
    var e1, e2 := Effect(q1, m1, s1), Effect(q2, m2, s2);
    ViewIsEffect(records, q1, m1, s1);
    ViewIsEffect(records, q2, m2, s2);
    ViewIsEffect(Apply(records, q1.username, e1), q2, m2, s2);
    ViewIsEffect(Apply(records, q2.username, e2), q1, m1, s1);
    ApplyCommute(records, q1.username, e1, q2.username, e2);
  }
}

=== FILE: solver_input.dfy ===
/**
 The first half of `form_teams_view` (main/views.py): the text handed to the
 external solver. It consists of the six-token setup line, the random ranks of
 the eligible members, and one chunk per member that lists the ranks of the
 members that member prefers.

 The random permutation (`random.sample`) is a parameter, and so are the
 Preferences rows of the space (username to `members_ranking`). The float
 parsing and scaling of alpha and theta happen before this point; the scaled
 integers are parameters too.
 */
module SolverInput {
  import opened Common
  import opened PyStr
  import opened Models
  import RankPreferences

  /** The owner's choices on the formation page, after `int()` and the float scaling. */
  datatype RunConfig = RunConfig(groupSize: int, algorithmIndex: int, alphaScaled: int, thetaScaled: int)

  /** The `iterative_soulmates` token the view always sends. */
  const IterativeSoulmates := "1"

  // ---------------------------------------------------------------------------
  // Setup line
  // ---------------------------------------------------------------------------

  /** The six setup tokens, in protocol order. */
  function SetupTokens(count: nat, config: RunConfig): (tokens: seq<string>)
    ensures |tokens| == 6
    ensures forall i :: 0 <= i < 6 ==> ' ' !in tokens[i]
  {
    NatToStringHasNoSeparator(count);
    [NatToString(count), IntToString(config.groupSize), IterativeSoulmates,
     IntToString(config.algorithmIndex), IntToString(config.alphaScaled), IntToString(config.thetaScaled)]
  }

  /** Six pieces written out with single spaces between them are their join. */
  lemma SixJoin(a: string, b: string, c: string, d: string, e: string, f: string)
    ensures a + " " + b + " " + c + " " + d + " " + e + " " + f == Join([a, b, c, d, e, f], " ")
  {
    var t := [a, b, c, d, e, f];
    JoinCons(e, [f], " ");
    assert t[4..] == [e] + [f];
    JoinCons(d, t[4..], " ");
    assert t[3..] == [d] + t[4..];
    JoinCons(c, t[3..], " ");
    assert t[2..] == [c] + t[3..];
    JoinCons(b, t[2..], " ");
    assert t[1..] == [b] + t[2..];
    JoinCons(a, t[1..], " ");
    assert t == [a] + t[1..];
  }

  /** `setup_data`: the member count, the group size, "1", the algorithm index and the scaled
      alpha and theta, separated by single spaces. Splitting it on spaces gives the six tokens
      back. */
  function SetupLine(count: nat, config: RunConfig): (line: string)
    ensures Split(line, ' ') == SetupTokens(count, config)
  {
    var t := SetupTokens(count, config);
    SixJoin(t[0], t[1], t[2], t[3], t[4], t[5]);
    SplitJoinRoundTrip(t, ' ');
    t[0] + " " + t[1] + " " + t[2] + " " + t[3] + " " + t[4] + " " + t[5]
  }

  // ---------------------------------------------------------------------------
  // Eligible members and their ranks
  // ---------------------------------------------------------------------------

  /** `space.member_set.exclude(name='Account in Progress')`, in query order. */
  function Eligible(participants: seq<Member>): (eligible: seq<Member>)
    ensures |eligible| <= |participants|
    ensures forall m :: m in eligible <==> m in participants && m.name != NotRegistered
  {
    if |participants| == 0 then []
    else if participants[0].name != NotRegistered then [participants[0]] + Eligible(participants[1..])
    else Eligible(participants[1..])
  }

  function Usernames(members: seq<Member>): (usernames: seq<string>)
    ensures |usernames| == |members|
    ensures forall i :: 0 <= i < |members| ==> usernames[i] == members[i].username
  {
    seq(|members|, i requires 0 <= i < |members| => members[i].username)
  }

  /** `user_to_rank_dict` after the loop: member i is given `perm[i]`, a later member with the same
      username overwriting an earlier one. */
  function UserToRank(usernames: seq<string>, perm: seq<nat>): (dict: map<string, nat>)
    requires |perm| == |usernames|
    ensures forall u :: u in dict <==> u in usernames
  {
    if |usernames| == 0 then map[]
    else
      var n := |usernames| - 1;
      assert usernames == usernames[..n] + [usernames[n]];
      UserToRank(usernames[..n], perm[..n])[usernames[n] := perm[n]]
  }

  /** `rank_to_user_dict` after the loop: rank `perm[i]` names member i. */
  function RankToUser(usernames: seq<string>, perm: seq<nat>): (dict: map<nat, string>)
    requires |perm| == |usernames|
    ensures forall r :: r in dict <==> r in perm
  {
    if |usernames| == 0 then map[]
    else
      var n := |usernames| - 1;
      assert perm == perm[..n] + [perm[n]];
      RankToUser(usernames[..n], perm[..n])[perm[n] := usernames[n]]
  }

  /** What `random.sample(range(0, n), n)` returns: the numbers 0 .. n-1, each once. */
  predicate IsPermutation(perm: seq<nat>, n: nat)
  {
    && |perm| == n
    && (forall i :: 0 <= i < n ==> perm[i] < n)
    && (forall i, j :: 0 <= i < j < n ==> perm[i] != perm[j])
  }

  lemma {:induction false} UserToRankAt(usernames: seq<string>, perm: seq<nat>, i: nat)
    requires |perm| == |usernames|
    requires Distinct(usernames)
    requires i < |usernames|
    ensures usernames[i] in UserToRank(usernames, perm)
    ensures UserToRank(usernames, perm)[usernames[i]] == perm[i]
    decreases |usernames|
  {
    var n := |usernames| - 1;
    var front := UserToRank(usernames[..n], perm[..n]);
    assert UserToRank(usernames, perm) == front[usernames[n] := perm[n]];
    if i < n {
      var names := usernames[..n];
      assert perm[..n][i] == perm[i] && names[i] == usernames[i];
      DistinctPrefix(usernames, n);
      UserToRankAt(names, perm[..n], i);
      assert usernames[i] != usernames[n];
    }
  }

  lemma DistinctPrefix(usernames: seq<string>, n: nat)
    requires Distinct(usernames)
    requires n <= |usernames|
    ensures Distinct(usernames[..n])
  {
  }

  lemma {:induction false} RankToUserAt(usernames: seq<string>, perm: seq<nat>, i: nat)
    requires |perm| == |usernames|
    requires forall i, j :: 0 <= i < j < |perm| ==> perm[i] != perm[j]
    requires i < |usernames|
    ensures perm[i] in RankToUser(usernames, perm)
    ensures RankToUser(usernames, perm)[perm[i]] == usernames[i]
    decreases |usernames|
  {
    var n := |usernames| - 1;
    var front := RankToUser(usernames[..n], perm[..n]);
    assert RankToUser(usernames, perm) == front[perm[n] := usernames[n]];
    if i < n {
      assert perm[..n][i] == perm[i] && usernames[..n][i] == usernames[i];
      RankToUserAt(usernames[..n], perm[..n], i);
      assert perm[i] != perm[n];
    }
  }

  /** A subset as large as its superset is the superset. */
  lemma {:induction false} SubsetCard<T>(a: set<T>, b: set<T>)
    requires a <= b
    ensures |a| <= |b|
    ensures |a| == |b| ==> a == b
    decreases a
  {
    if a != {} {
      var x :| x in a;
      SubsetCard(a - {x}, b - {x});
    } else if |b| == 0 {
      assert b == {};
    }
  }

  /** The numbers 0 .. n-1. */
  function Below(n: nat): (numbers: set<nat>)
    ensures forall r: nat :: r in numbers <==> r < n
    ensures |numbers| == n
  {
    if n == 0 then {}
    else
      var front := Below(n - 1);
      assert front * {n - 1} == {};
      front + {n - 1}
  }

  /** The numbers a sequence holds. */
  function Values(perm: seq<nat>): (values: set<nat>)
    ensures forall r :: r in values <==> r in perm
  {
    set r | r in perm
  }

  lemma {:induction false} DistinctValuesCard(perm: seq<nat>)
    requires forall i, j :: 0 <= i < j < |perm| ==> perm[i] != perm[j]
    ensures |Values(perm)| == |perm|
    decreases |perm|
  {
    if |perm| > 0 {
      var n := |perm| - 1;
      var front := perm[..n];
      DistinctValuesCard(front);
      assert perm == front + [perm[n]];
      var a := Values(front);
      assert a * {perm[n]} == {};
      assert Values(perm) == a + {perm[n]};
      assert |a| == n;
      assert |{perm[n]}| == 1;
      assert |a + {perm[n]}| == n + 1;
    }
  }

  /** A permutation of 0 .. n-1 uses every number below n. */
  lemma PermutationCovers(perm: seq<nat>, n: nat)
    requires IsPermutation(perm, n)
    ensures Values(perm) == Below(n)
  {
    DistinctValuesCard(perm);
    SubsetCard(Values(perm), Below(n));
  }

  /** With distinct usernames and a permutation of 0 .. n-1, the two dictionaries are mutually
      inverse bijections between the n usernames and the ranks 0 .. n-1. */
  lemma RankMapsBijection(usernames: seq<string>, perm: seq<nat>)
    requires IsPermutation(perm, |usernames|)
    requires Distinct(usernames)
    ensures var u2r := UserToRank(usernames, perm);
      var r2u := RankToUser(usernames, perm);
      && (forall u :: u in u2r <==> u in usernames)
      && (forall r: nat :: r in r2u <==> r < |usernames|)
      && (forall u :: u in u2r ==> u2r[u] in r2u && r2u[u2r[u]] == u)
      && (forall r :: r in r2u ==> r2u[r] in u2r && u2r[r2u[r]] == r)
  {
    var u2r := UserToRank(usernames, perm);
    var r2u := RankToUser(usernames, perm);
    PermutationCovers(perm, |usernames|);
    forall r: nat
      ensures r in r2u <==> r < |usernames|
    {
      assert r in r2u <==> r in Values(perm);
    }
    forall u | u in u2r
      ensures u2r[u] in r2u && r2u[u2r[u]] == u
    {
      var i :| 0 <= i < |usernames| && usernames[i] == u;
      UserToRankAt(usernames, perm, i);
      RankToUserAt(usernames, perm, i);
      assert perm[i] in perm;
    }
    forall r | r in r2u
      ensures r2u[r] in u2r && u2r[r2u[r]] == r
    {
      var i :| 0 <= i < |perm| && perm[i] == r;
      UserToRankAt(usernames, perm, i);
      RankToUserAt(usernames, perm, i);
      assert usernames[i] in usernames;
    }
  }

  // ---------------------------------------------------------------------------
  // One member's chunk
  // ---------------------------------------------------------------------------

  /** The loop over one member's ranking tokens (lines 651-657): the `finished` flag is raised by
      the first "@myself@" and from then on nothing is emitted; a token that is not an eligible
      username is skipped. */
  function ScanRanks(tokens: seq<string>, userToRank: map<string, nat>, finished: bool): (ranks: seq<nat>)
    ensures |ranks| <= |tokens|
    ensures finished ==> ranks == []
  {
    if |tokens| == 0 then []
    else
      var done := finished || tokens[0] == MyselfToken;
      (if tokens[0] in userToRank && !done then [userToRank[tokens[0]]] else [])
        + ScanRanks(tokens[1..], userToRank, done)
  }

  /** The tokens before the first "@myself@" (all of them when there is none). */
  function BeforeMyself(tokens: seq<string>): (prefix: seq<string>)
    ensures |prefix| <= |tokens| && prefix == tokens[..|prefix|]
    ensures MyselfToken !in prefix
    ensures |prefix| < |tokens| ==> tokens[|prefix|] == MyselfToken
  {
    if |tokens| == 0 then []
    else if tokens[0] == MyselfToken then []
    else [tokens[0]] + BeforeMyself(tokens[1..])
  }

  /** The dictionary lookups of the tokens, in order, skipping tokens it does not hold. */
  function Lookups(tokens: seq<string>, userToRank: map<string, nat>): (ranks: seq<nat>)
    ensures |ranks| <= |tokens|
    ensures forall r :: r in ranks ==> exists t :: t in tokens && t in userToRank && userToRank[t] == r
  {
    if |tokens| == 0 then []
    else (if tokens[0] in userToRank then [userToRank[tokens[0]]] else []) + Lookups(tokens[1..], userToRank)
  }

  /** The ranks emitted for a member are the lookups of their tokens before the first "@myself@". */
  lemma {:induction false} EmittedRanks(tokens: seq<string>, userToRank: map<string, nat>)
    ensures ScanRanks(tokens, userToRank, false) == Lookups(BeforeMyself(tokens), userToRank)
    decreases |tokens|
  {
    if |tokens| > 0 && tokens[0] != MyselfToken {
      EmittedRanks(tokens[1..], userToRank);
    }
  }

  /** The ranks as text: each followed by one space. */
  function RankText(ranks: seq<nat>): (text: string)
    ensures Split(text, ' ') == RankStrings(ranks) + [""]
  {
    forall i | 0 <= i < |ranks| {
      NatToStringHasNoSeparator(ranks[i]);
    }
    SplitTerminatedRoundTrip(RankStrings(ranks), ' ');
    Terminated(RankStrings(ranks), " ")
  }

  function RankStrings(ranks: seq<nat>): (strings: seq<string>)
    ensures |strings| == |ranks|
    ensures forall i :: 0 <= i < |ranks| ==> strings[i] == NatToString(ranks[i])
  {
    seq(|ranks|, i requires 0 <= i < |ranks| => NatToString(ranks[i]))
  }

  /** The marker word the view writes before a member's ranks. */
  const Alone := "alone"

  /** The marker word for a member who accepts any team. */
  const AnyTeam := "team"

  /** The start of every chunk: the username and the member's rank, each followed by a space. */
  function ChunkHead(username: string, userToRank: map<string, nat>): string
    requires username in userToRank
  {
    username + " " + NatToString(userToRank[username]) + " "
  }

  /** `member_data` for one member (lines 644-664). `ranking` is the `members_ranking` of the
      member's Preferences row for the space, if there is one. The marker is always "alone":
      line 654 tests the whole Preferences row, not the token, against "@team@", and a row never
      equals a string, so `wants_any_team` stays false. */
  function Chunk(username: string, ranking: Option<string>, userToRank: map<string, nat>): (chunk: string)
    requires username in userToRank
    ensures ranking.Some? ==>
      chunk == ChunkHead(username, userToRank)
        + (" " + (Alone + " " + RankText(Lookups(BeforeMyself(Split(ranking.value, ' ')), userToRank))))
  {
    var head := ChunkHead(username, userToRank);
    match ranking
    case None => head + (Alone + " ")
    case Some(r) =>
      var tokens := Split(r, ' ');
      EmittedRanks(tokens, userToRank);
      var prefData := Alone + " " + RankText(ScanRanks(tokens, userToRank, false));
      head + (" " + prefData)
  }

  /** The tokens the solver reads from a member's chunk: the username and the rank; then, when the
      member has a Preferences row, an empty token (from the double space), "alone" and the ranks
      of the preferred members before "@myself@"; otherwise just "alone". */
  function ChunkTokenList(username: string, ranking: Option<string>, userToRank: map<string, nat>): (tokens: seq<string>)
    requires username in userToRank
    ensures |tokens| >= 3 && tokens[0] == username && tokens[1] == NatToString(userToRank[username])
    ensures ranking.None? <==> tokens[2] == Alone
  {
    var rank := NatToString(userToRank[username]);
    match ranking
    case None => [username, rank, Alone]
    case Some(r) => [username, rank, "", Alone] + RankStrings(Lookups(BeforeMyself(Split(r, ' ')), userToRank))
  }

  lemma {:induction false} TerminatedConcat(a: seq<string>, b: seq<string>, sep: string)
    ensures Terminated(a + b, sep) == Terminated(a, sep) + Terminated(b, sep)
    decreases |a|
  {
    if |a| > 0 {
      assert (a + b)[1..] == a[1..] + b;
      TerminatedConcat(a[1..], b, sep);
    } else {
      assert a + b == b;
    }
  }

  /** The two chunk layouts, over plain strings. */
  lemma ChunkLayout(username: string, rank: string, rest: string)
    ensures username + " " + rank + " " + (Alone + " ") == Terminated([username, rank, Alone], " ")
    ensures username + " " + rank + " " + (" " + (Alone + " " + rest)) == Terminated([username, rank, "", Alone], " ") + rest
  {
    ThreeTerminated(username, rank, Alone, " ");
    FourTerminated(username, rank, "", Alone, " ");
  }

  /** Every token of a chunk is followed by exactly one space. */
  lemma ChunkTerminated(username: string, ranking: Option<string>, userToRank: map<string, nat>)
    requires username in userToRank
    ensures Chunk(username, ranking, userToRank) == Terminated(ChunkTokenList(username, ranking, userToRank), " ")
  {
    var rank := NatToString(userToRank[username]);
    match ranking
    case None =>
      ChunkLayout(username, rank, "");
    case Some(r) =>
      var lookups := Lookups(BeforeMyself(Split(r, ' ')), userToRank);
      var ranks := RankStrings(lookups);
      var t := [username, rank, "", Alone];
      var rt := RankText(lookups);
      ChunkLayout(username, rank, rt);
      TerminatedConcat(t, ranks, " ");
      assert Terminated(ranks, " ") == rt;
      assert ChunkTokenList(username, ranking, userToRank) == t + ranks;
  }

  /** Splitting a chunk on spaces gives its token list and one empty piece. */
  lemma ChunkTokens(username: string, ranking: Option<string>, userToRank: map<string, nat>)
    requires username in userToRank
    requires ' ' !in username
    ensures Split(Chunk(username, ranking, userToRank), ' ') == ChunkTokenList(username, ranking, userToRank) + [""]
  {
    ChunkTerminated(username, ranking, userToRank);
    ChunkTokensSpaceFree(username, ranking, userToRank);
    SplitTerminatedRoundTrip(ChunkTokenList(username, ranking, userToRank), ' ');
  }

  /** No token holds a space. */
  predicate SpaceFree(tokens: seq<string>)
  {
    forall i :: 0 <= i < |tokens| ==> ' ' !in tokens[i]
  }

  lemma ChunkTokensSpaceFree(username: string, ranking: Option<string>, userToRank: map<string, nat>)
    requires username in userToRank
    requires ' ' !in username
    ensures SpaceFree(ChunkTokenList(username, ranking, userToRank))
  {
    NatToStringHasNoSeparator(userToRank[username]);
    var t := ChunkTokenList(username, ranking, userToRank);
    forall i | 0 <= i < |t|
      ensures ' ' !in t[i]
    {
      if i >= 4 {
        var ranks := Lookups(BeforeMyself(Split(ranking.value, ' ')), userToRank);
        NatToStringHasNoSeparator(ranks[i - 4]);
      }
    }
  }

  lemma {:induction false} LookupsAppend(a: seq<string>, b: seq<string>, userToRank: map<string, nat>)
    ensures Lookups(a + b, userToRank) == Lookups(a, userToRank) + Lookups(b, userToRank)
    decreases |a|
  {
    if |a| > 0 {
      assert (a + b)[1..] == a[1..] + b;
      LookupsAppend(a[1..], b, userToRank);
    } else {
      assert a + b == b;
    }
  }

  lemma {:induction false} BeforeMyselfAppend(a: seq<string>, b: seq<string>)
    ensures MyselfToken in a ==> BeforeMyself(a + b) == BeforeMyself(a)
    ensures MyselfToken !in a ==> BeforeMyself(a + b) == a + BeforeMyself(b)
    decreases |a|
  {
    if |a| > 0 {
      assert (a + b)[1..] == a[1..] + b;
      BeforeMyselfAppend(a[1..], b);
      if a[0] != MyselfToken {
        assert MyselfToken in a <==> MyselfToken in a[1..];
        assert a == [a[0]] + a[1..];
      }
    } else {
      assert a + b == b;
    }
  }

  /** What reaches the solver from a member's submitted peer list: the ranks of the listed members,
      in submission order, up to the "Myself" entry. Peers after it, unknown usernames and the
      trailing empty piece contribute nothing. */
  lemma SubmittedPeersReachSolver(username: string, peers: seq<string>, userToRank: map<string, nat>)
    requires username in userToRank
    requires "" !in userToRank
    ensures ChunkTokenList(username, Some(RankPreferences.MembersRanking(peers)), userToRank)
      == [username, NatToString(userToRank[username]), "", Alone]
         + RankStrings(Lookups(BeforeMyself(RankPreferences.PeerTokens(peers)), userToRank))
  {
    var tokens := RankPreferences.PeerTokens(peers);
    BeforeMyselfAppend(tokens, [""]);
    if MyselfToken !in tokens {
      LookupsAppend(tokens, [""], userToRank);
      assert BeforeMyself([""]) == [""];
      assert Lookups([""], userToRank) == [];
      assert tokens + [] == tokens;
      assert Lookups(tokens, userToRank) + [] == Lookups(tokens, userToRank);
    }
  }

  /** The marker the branch evidently intends: "team" when some token of the ranking is
      "@team@", "alone" otherwise. Like the loop, it looks at every token, also after "@myself@". */
  function MarkerIntended(tokens: seq<string>): (marker: string)
    ensures marker == AnyTeam <==> TeamToken in tokens
    ensures marker == Alone <==> TeamToken !in tokens
  {
    if |tokens| == 0 then Alone
    else if tokens[0] == TeamToken then AnyTeam
    else MarkerIntended(tokens[1..])
  }

  /** A member's chunk with the intended marker: it differs from the chunk as written exactly
      when the ranking holds "@team@". */
  function ChunkIntended(username: string, ranking: Option<string>, userToRank: map<string, nat>): (chunk: string)
    requires username in userToRank
    ensures ranking.None? ==> chunk == Chunk(username, ranking, userToRank)
    ensures ranking.Some? && TeamToken !in Split(ranking.value, ' ') ==> chunk == Chunk(username, ranking, userToRank)
    ensures ranking.Some? && TeamToken in Split(ranking.value, ' ') ==>
      chunk == ChunkHead(username, userToRank)
        + (" " + (AnyTeam + " " + RankText(Lookups(BeforeMyself(Split(ranking.value, ' ')), userToRank))))
  {
    var head := ChunkHead(username, userToRank);
    match ranking
    case None => head + (Alone + " ")
    case Some(r) =>
      var tokens := Split(r, ' ');
      EmittedRanks(tokens, userToRank);
      var prefData := MarkerIntended(tokens) + " " + RankText(ScanRanks(tokens, userToRank, false));
      head + (" " + prefData)
  }

  /** Line 654 as written: a member whose ranking holds "@team@" still gets the "alone" marker, so
      the chunk differs from the intended one. */
  lemma TeamMarkerUnreachable(username: string, ranking: string, userToRank: map<string, nat>)
    requires username in userToRank
    requires TeamToken in Split(ranking, ' ')
    ensures Chunk(username, Some(ranking), userToRank) != ChunkIntended(username, Some(ranking), userToRank)
  {
    var head := ChunkHead(username, userToRank);
    var rest := RankText(Lookups(BeforeMyself(Split(ranking, ' ')), userToRank));
    var written := head + (" " + (Alone + " " + rest));
    var intended := head + (" " + (AnyTeam + " " + rest));
    assert written[|head| + 1] == 'a';
    assert intended[|head| + 1] == 't';
  }

  // ---------------------------------------------------------------------------
  // The whole input
  // ---------------------------------------------------------------------------

  /** The ranking of a member, if the space has a Preferences row for them. */
  function RankingOf(username: string, records: map<string, string>): (ranking: Option<string>)
    ensures ranking.Some? <==> username in records
    ensures ranking.Some? ==> ranking.value == records[username]
  {
    if username in records then Some(records[username]) else None
  }

  /** `user_preferences`: the chunks of the eligible members in query order. */
  function PreferencesText(eligible: seq<Member>, records: map<string, string>, userToRank: map<string, nat>): (text: string)
    requires forall i :: 0 <= i < |eligible| ==> eligible[i].username in userToRank
    ensures |eligible| == 0 <==> text == ""
  {
    if |eligible| == 0 then ""
    else
      var u := eligible[0].username;
      var chunk := Chunk(u, RankingOf(u, records), userToRank);
      ChunkTerminated(u, RankingOf(u, records), userToRank);
      chunk + PreferencesText(eligible[1..], records, userToRank)
  }

  /** The token lists of all chunks, one after another. */
  function AllTokens(eligible: seq<Member>, records: map<string, string>, userToRank: map<string, nat>): (tokens: seq<string>)
    requires forall i :: 0 <= i < |eligible| ==> eligible[i].username in userToRank
    ensures |tokens| >= 3 * |eligible|
  {
    if |eligible| == 0 then []
    else
      var u := eligible[0].username;
      ChunkTokenList(u, RankingOf(u, records), userToRank) + AllTokens(eligible[1..], records, userToRank)
  }

  lemma {:induction false} PreferencesTerminated(eligible: seq<Member>, records: map<string, string>, userToRank: map<string, nat>)
    requires forall i :: 0 <= i < |eligible| ==> eligible[i].username in userToRank
    ensures PreferencesText(eligible, records, userToRank) == Terminated(AllTokens(eligible, records, userToRank), " ")
    decreases |eligible|
  {
    if |eligible| > 0 {
      var u := eligible[0].username;
      ChunkTerminated(u, RankingOf(u, records), userToRank);
      PreferencesTerminated(eligible[1..], records, userToRank);
      TerminatedConcat(ChunkTokenList(u, RankingOf(u, records), userToRank), AllTokens(eligible[1..], records, userToRank), " ");
    }
  }

  lemma {:induction false} AllTokensSpaceFree(eligible: seq<Member>, records: map<string, string>, userToRank: map<string, nat>)
    requires forall i :: 0 <= i < |eligible| ==> eligible[i].username in userToRank && ' ' !in eligible[i].username
    ensures SpaceFree(AllTokens(eligible, records, userToRank))
    decreases |eligible|
  {
    if |eligible| > 0 {
      var u := eligible[0].username;
      var head := ChunkTokenList(u, RankingOf(u, records), userToRank);
      var tail := AllTokens(eligible[1..], records, userToRank);
      ChunkTokensSpaceFree(u, RankingOf(u, records), userToRank);
      AllTokensSpaceFree(eligible[1..], records, userToRank);
      var t := AllTokens(eligible, records, userToRank);
      assert t == head + tail;
      forall i | 0 <= i < |t|
        ensures ' ' !in t[i]
      {
        if i >= |head| {
          assert t[i] == tail[i - |head|];
        } else {
          assert t[i] == head[i];
        }
      }
    }
  }

  /** What the solver reads from the preferences argument: the chunks' token lists in member order,
      then one empty piece. */
  lemma PreferencesTokens(eligible: seq<Member>, records: map<string, string>, userToRank: map<string, nat>)
    requires forall i :: 0 <= i < |eligible| ==> eligible[i].username in userToRank && ' ' !in eligible[i].username
    ensures Split(PreferencesText(eligible, records, userToRank), ' ') == AllTokens(eligible, records, userToRank) + [""]
  {
    PreferencesTerminated(eligible, records, userToRank);
    AllTokensSpaceFree(eligible, records, userToRank);
    SplitTerminatedRoundTrip(AllTokens(eligible, records, userToRank), ' ');
  }

  /** Every eligible member is given a rank. */
  lemma EligibleHaveRanks(eligible: seq<Member>, perm: seq<nat>)
    requires |perm| == |eligible|
    ensures forall i :: 0 <= i < |eligible| ==> eligible[i].username in UserToRank(Usernames(eligible), perm)
    ensures forall m :: m in eligible ==> m.username in UserToRank(Usernames(eligible), perm)
  {
    var usernames := Usernames(eligible);
    forall i | 0 <= i < |eligible| ensures eligible[i].username in UserToRank(usernames, perm) {
      assert usernames[i] in usernames;
    }
  }

  /** The two arguments passed to the solver, and the rank dictionaries of the run. */
  datatype Encoded = Encoded(setup: string, preferences: string, rankToUser: map<nat, string>, userToRank: map<string, nat>)

  /** Lines 619-665: encode one run for the solver. `perm` is the sample drawn for the run. */
  function Encode(participants: seq<Member>, records: map<string, string>, perm: seq<nat>, config: RunConfig): (e: Encoded)
    requires |perm| == |Eligible(participants)|
    ensures e.setup == SetupLine(|Eligible(participants)|, config)
    ensures Split(e.setup, ' ')[0] == NatToString(|Eligible(participants)|)
    ensures forall m :: m in Eligible(participants) ==> m.username in e.userToRank
    ensures forall r :: r in e.rankToUser <==> r in perm
    ensures e.userToRank == UserToRank(Usernames(Eligible(participants)), perm)
    ensures e.rankToUser == RankToUser(Usernames(Eligible(participants)), perm)
    ensures e.preferences == PreferencesText(Eligible(participants), records, e.userToRank)
  {
    var eligible := Eligible(participants);
    var usernames := Usernames(eligible);
    var userToRank := UserToRank(usernames, perm);
    EligibleHaveRanks(eligible, perm);
    Encoded(SetupLine(|eligible|, config), PreferencesText(eligible, records, userToRank),
            RankToUser(usernames, perm), userToRank)
  }

  /** The rank dictionaries built from the eligible members translate each member to a rank and
      back, and every rank below n to a member and back. */
  lemma MemberRanks(eligible: seq<Member>, perm: seq<nat>)
    requires IsPermutation(perm, |eligible|)
    requires Distinct(Usernames(eligible))
    ensures var u2r := UserToRank(Usernames(eligible), perm);
      var r2u := RankToUser(Usernames(eligible), perm);
      && (forall m :: m in eligible ==> m.username in u2r && u2r[m.username] in r2u && r2u[u2r[m.username]] == m.username)
      && (forall r: nat :: r in r2u <==> r < |perm|)
      && (forall r :: r in r2u ==> r2u[r] in u2r && u2r[r2u[r]] == r)
  {
    var usernames := Usernames(eligible);
    RankMapsBijection(usernames, perm);
    EligibleHaveRanks(eligible, perm);
  }

  /** When the sample is a permutation and the eligible usernames are distinct, the two
      dictionaries of a run translate ranks and usernames into each other without loss. */
  lemma EncodeRankMaps(participants: seq<Member>, records: map<string, string>, perm: seq<nat>, config: RunConfig)
    requires IsPermutation(perm, |Eligible(participants)|)
    requires Distinct(Usernames(Eligible(participants)))
    ensures var e := Encode(participants, records, perm, config);
      && (forall m :: m in Eligible(participants) ==>
            && m.username in e.userToRank && e.userToRank[m.username] in e.rankToUser
            && e.rankToUser[e.userToRank[m.username]] == m.username)
      && (forall r: nat :: r in e.rankToUser <==> r < |perm|)
      && (forall r :: r in e.rankToUser ==> e.rankToUser[r] in e.userToRank && e.userToRank[e.rankToUser[r]] == r)
  {
    MemberRanks(Eligible(participants), perm);
  }

  /** The first two tokens the solver reads are the first member's username and rank. */
  lemma FirstChunkTokens(eligible: seq<Member>, records: map<string, string>, userToRank: map<string, nat>)
    requires |eligible| > 0
    requires forall i :: 0 <= i < |eligible| ==> eligible[i].username in userToRank && ' ' !in eligible[i].username
    ensures var tokens := Split(PreferencesText(eligible, records, userToRank), ' ');
      var first := eligible[0].username;
      |tokens| >= 2 && tokens[0] == first && tokens[1] == NatToString(userToRank[first])
  {
    PreferencesTokens(eligible, records, userToRank);
    var u := eligible[0].username;
    var all := AllTokens(eligible, records, userToRank);
    var chunk := ChunkTokenList(u, RankingOf(u, records), userToRank);
    assert all == chunk + AllTokens(eligible[1..], records, userToRank);
    assert all[0] == chunk[0] && all[1] == chunk[1];
  }

  /** The input is not anonymised: the first token of the preferences argument is the first
      eligible member's username, the second their rank. */
  lemma UsernamesInClear(participants: seq<Member>, records: map<string, string>, perm: seq<nat>, config: RunConfig)
    requires |perm| == |Eligible(participants)|
    requires |Eligible(participants)| > 0
    requires forall m :: m in participants ==> ' ' !in m.username
    ensures var e := Encode(participants, records, perm, config);
      var first := Eligible(participants)[0].username;
      var tokens := Split(e.preferences, ' ');
      |tokens| >= 2 && tokens[0] == first && tokens[1] == NatToString(e.userToRank[first])
  {
    var eligible := Eligible(participants);
    var e := Encode(participants, records, perm, config);
    forall i | 0 <= i < |eligible|
      ensures eligible[i].username in e.userToRank && ' ' !in eligible[i].username
    {
      assert eligible[i] in eligible;
    }
    FirstChunkTokens(eligible, records, e.userToRank);
  }
}

=== FILE: solver_output.dfy ===
/**
 The second half of `form_teams_view` (main/views.py): reading the solver's
 standard output back into teams of the new MasterTeam.

 The output is a parameter: the sequence of lines the view iterates over, each
 still carrying its line ending, as iteration over a pipe yields it. Member
 lookups go to the whole Member table, modelled as `accounts`: the usernames
 of all Member rows, including the pending rows of invited accounts, whose
 username is still "" (main/views.py:433, 459). `Member.objects.get` on an
 unknown username raises; the exception ends the view, and the teams created up
 to that point stay in the database.
 */
module SolverOutput {
  import opened Common
  import opened PyStr
  import opened Models
  import SolverInput

  /** The teams created while reading the output, in creation order, each as the set of its
      members' usernames; `crash` is the token whose lookup raised, if one did. */
  datatype Parsed = Parsed(teams: seq<set<string>>, crash: Option<string>)

  /** The tokens after a two-character tag and the character after it (`line[3:].split(" ")`). */
  function Body(line: string): (tokens: seq<string>)
    ensures |tokens| >= 1
  {
    Split(From(line, 3), ' ')
  }

  // ---------------------------------------------------------------------------
  // The parser as written
  // ---------------------------------------------------------------------------

  /** The members of a `T:` team: the tokens that are usernames of Member rows. */
  function TeamMembers(tokens: seq<string>, accounts: set<string>): (members: set<string>)
    ensures forall u :: u in members <==> u in tokens && u in accounts
  {
    if |tokens| == 0 then {}
    else
      assert tokens == [tokens[0]] + tokens[1..];
      (if tokens[0] in accounts then {tokens[0]} else {}) + TeamMembers(tokens[1..], accounts)
  }

  /** The tokens that are not empty, in order. */
  function NonEmpty(tokens: seq<string>): (kept: seq<string>)
    ensures |kept| <= |tokens|
    ensures forall t :: t in kept <==> t in tokens && t != ""
  {
    if |tokens| == 0 then []
    else if tokens[0] == "" then NonEmpty(tokens[1..])
    else [tokens[0]] + NonEmpty(tokens[1..])
  }

  /** One singleton team per token. */
  function Singletons(tokens: seq<string>): (teams: seq<set<string>>)
    ensures |teams| == |tokens|
    ensures forall i :: 0 <= i < |tokens| ==> teams[i] == {tokens[i]}
  {
    seq(|tokens|, i requires 0 <= i < |tokens| => {tokens[i]})
  }

  /** Every member of every team is in `known`. */
  predicate TeamsWithin(teams: seq<set<string>>, known: set<string>)
  {
    forall i, u :: 0 <= i < |teams| && u in teams[i] ==> u in known
  }

  /** Every non-empty token is the username of a Member row. */
  predicate AllAccounts(tokens: seq<string>, accounts: set<string>)
  {
    forall i :: 0 <= i < |tokens| ==> tokens[i] == "" || tokens[i] in accounts
  }

  /** The loop of an `S:` line: a singleton team for every non-empty token, until a token that is
      not the username of a Member row makes `Member.objects.get` raise. */
  function SoloTeams(tokens: seq<string>, accounts: set<string>): (p: Parsed)
    ensures p.crash.Some? ==> p.crash.value != "" && p.crash.value in tokens && p.crash.value !in accounts
    ensures TeamsWithin(p.teams, accounts)
  {
    if |tokens| == 0 then Parsed([], None)
    else if tokens[0] == "" then SoloTeams(tokens[1..], accounts)
    else if tokens[0] !in accounts then Parsed([], Some(tokens[0]))
    else
      var rest := SoloTeams(tokens[1..], accounts);
      var teams := [{tokens[0]}] + rest.teams;
      assert forall i :: 1 <= i < |teams| ==> teams[i] == rest.teams[i - 1];
      Parsed(teams, rest.crash)
  }

  /** An `S:` loop raises exactly when some non-empty token is not the username of a Member row; otherwise it makes
      one singleton team per non-empty token, in order. */
  lemma {:induction false} SoloTeamsComplete(tokens: seq<string>, accounts: set<string>)
    ensures SoloTeams(tokens, accounts).crash.None? <==> AllAccounts(tokens, accounts)
    ensures SoloTeams(tokens, accounts).crash.None? ==> SoloTeams(tokens, accounts).teams == Singletons(NonEmpty(tokens))
    decreases |tokens|
  {
    if |tokens| > 0 {
      SoloTeamsComplete(tokens[1..], accounts);
      assert AllAccounts(tokens, accounts) <==>
        (tokens[0] == "" || tokens[0] in accounts) && AllAccounts(tokens[1..], accounts) by {
        if AllAccounts(tokens[1..], accounts) && (tokens[0] == "" || tokens[0] in accounts) {
          forall i | 0 <= i < |tokens|
            ensures tokens[i] == "" || tokens[i] in accounts
          {
            if i > 0 {
              assert tokens[i] == tokens[1..][i - 1];
            }
          }
        }
      }
      if tokens[0] != "" && tokens[0] in accounts {
        var rest := NonEmpty(tokens[1..]);
        assert NonEmpty(tokens) == [tokens[0]] + rest;
        assert Singletons([tokens[0]] + rest) == [{tokens[0]}] + Singletons(rest);
      }
    }
  }

  /** One output line (lines 680-699): a `T:` line makes one team of the tokens that are
      usernames of Member rows, an `S:` line one singleton team per non-empty token, any other
      line nothing. */
  function ParseLine(line: string, accounts: set<string>): (p: Parsed)
    ensures StartsWith2(line, "T:") ==> p == Parsed([TeamMembers(Body(line), accounts)], None)
    ensures StartsWith2(line, "S:") ==> p == SoloTeams(Body(line), accounts)
    ensures !StartsWith2(line, "T:") && !StartsWith2(line, "S:") ==> p == Parsed([], None)
    ensures TeamsWithin(p.teams, accounts)
  {
    if StartsWith2(line, "T:") then Parsed([TeamMembers(Body(line), accounts)], None)
    else if StartsWith2(line, "S:") then SoloTeams(Body(line), accounts)
    else Parsed([], None)
  }

  /** The parsed lines of one run, combined in order: teams accumulate until a line raises,
      and nothing after that line is read. */
  function Run(results: seq<Parsed>): (p: Parsed)
    ensures (forall i :: 0 <= i < |results| ==> results[i].crash.None?) ==> p.crash.None?
    ensures p.crash.Some? ==> exists i :: 0 <= i < |results| && results[i].crash == p.crash
  {
    if |results| == 0 then Parsed([], None)
    else if results[0].crash.Some? then results[0]
    else
      var rest := Run(results[1..]);
      assert forall i :: 0 <= i < |results[1..]| ==> results[1..][i] == results[i + 1];
      Parsed(results[0].teams + rest.teams, rest.crash)
  }

  /** The first line that raises ends the run: its crash is the run's, and no later line adds a
      team. */
  lemma {:induction false} RunStopsAtFirstCrash(results: seq<Parsed>, k: nat)
    requires k < |results| && results[k].crash.Some?
    requires forall i :: 0 <= i < k ==> results[i].crash.None?
    ensures Run(results).crash == results[k].crash
    ensures Run(results) == Run(results[..k + 1])
    decreases k
  {
    if k > 0 {
      var prefix := results[..k + 1];
      assert results[1..][..k] == prefix[1..];
      assert prefix[0] == results[0];
      RunStopsAtFirstCrash(results[1..], k - 1);
    }
  }

  /** The lines of the output, each parsed on its own. */
  function ParseLines(lines: seq<string>, accounts: set<string>): (results: seq<Parsed>)
    ensures |results| == |lines|
    ensures forall i :: 0 <= i < |lines| ==> results[i] == ParseLine(lines[i], accounts)
  {
    seq(|lines|, i requires 0 <= i < |lines| => ParseLine(lines[i], accounts))
  }

  /** Lines 678-699: the whole output, stopping at the first lookup that raises. */
  function ParseOutput(lines: seq<string>, accounts: set<string>): (p: Parsed)
    ensures TeamsWithin(p.teams, accounts)
  {
    var results := ParseLines(lines, accounts);
    RunWithin(results, accounts);
    Run(results)
  }

  lemma {:induction false} RunWithin(results: seq<Parsed>, known: set<string>)
    requires forall i :: 0 <= i < |results| ==> TeamsWithin(results[i].teams, known)
    ensures TeamsWithin(Run(results).teams, known)
    decreases |results|
  {
    if |results| > 0 && results[0].crash.None? {
      RunWithin(results[1..], known);
      var rest := Run(results[1..]);
      var teams := results[0].teams + rest.teams;
      forall i, u | 0 <= i < |teams| && u in teams[i]
        ensures u in known
      {
        if i >= |results[0].teams| {
          assert teams[i] == rest.teams[i - |results[0].teams|];
        } else {
          assert teams[i] == results[0].teams[i];
        }
      }
    }
  }

  /** Running two blocks of results one after the other: when the first block raises nothing, its
      teams come first and the second block continues the run. */
  lemma {:induction false} RunConcat(a: seq<Parsed>, b: seq<Parsed>)
    requires Run(a).crash.None?
    ensures Run(a + b) == Parsed(Run(a).teams + Run(b).teams, Run(b).crash)
    decreases |a|
  {
    if |a| == 0 {
      assert a + b == b;
    } else {
      assert (a + b)[0] == a[0];
      assert (a + b)[1..] == a[1..] + b;
      RunConcat(a[1..], b);
      assert a[0].teams + (Run(a[1..]).teams + Run(b).teams) == (a[0].teams + Run(a[1..]).teams) + Run(b).teams;
    }
  }

  /** Reading two blocks of output one after the other: when the first block raises nothing, its
      teams come first and the second block continues the run. */
  lemma ParseOutputConcat(a: seq<string>, b: seq<string>, accounts: set<string>)
    requires ParseOutput(a, accounts).crash.None?
    ensures ParseOutput(a + b, accounts)
      == Parsed(ParseOutput(a, accounts).teams + ParseOutput(b, accounts).teams, ParseOutput(b, accounts).crash)
  {
    assert ParseLines(a + b, accounts) == ParseLines(a, accounts) + ParseLines(b, accounts);
    RunConcat(ParseLines(a, accounts), ParseLines(b, accounts));
  }

  /** A `T:` line creates exactly one team, even when no token names a member. */
  lemma TeamLine(line: string, accounts: set<string>)
    requires StartsWith2(line, "T:")
    ensures |ParseLine(line, accounts).teams| == 1
    ensures ParseLine(line, accounts).crash.None?
    ensures forall u :: u in ParseLine(line, accounts).teams[0] <==> u in Body(line) && u in accounts
  {
  }

  /** An `S:` line whose tokens all name Member rows creates one singleton team per non-empty token,
      in order. */
  lemma SoloLine(line: string, accounts: set<string>)
    requires StartsWith2(line, "S:")
    requires AllAccounts(Body(line), accounts)
    ensures ParseLine(line, accounts) == Parsed(Singletons(NonEmpty(Body(line))), None)
  {
    SoloTeamsComplete(Body(line), accounts);
  }

  /** A line with neither tag creates nothing. */
  lemma UntaggedLine(line: string, accounts: set<string>)
    requires !StartsWith2(line, "T:") && !StartsWith2(line, "S:")
    ensures ParseLine(line, accounts) == Parsed([], None)
  {
  }

  // ---------------------------------------------------------------------------
  // What the solver is sent, read back as written
  // ---------------------------------------------------------------------------

  /** A line `<tag> <rank> <rank> ...`: a reply in ranks, the form the run's
      `rank_to_user_dict` (main/views.py:630-632) would decode. The solver and its reply format
      are not part of this model. */
  function RankLine(tag: string, ranks: seq<nat>): (line: string)
    requires |tag| == 2
    ensures StartsWith2(line, tag)
  {
    var line := tag + " " + Join(SolverInput.RankStrings(ranks), " ");
    assert line[..2] == tag;
    line
  }

  lemma RankLineBody(tag: string, ranks: seq<nat>)
    requires |tag| == 2
    requires |ranks| >= 1
    ensures Body(RankLine(tag, ranks)) == SolverInput.RankStrings(ranks)
  {
    var strings := SolverInput.RankStrings(ranks);
    var line := RankLine(tag, ranks);
    assert From(line, 3) == Join(strings, " ");
    forall i | 0 <= i < |strings|
      ensures ' ' !in strings[i]
    {
      NatToStringHasNoSeparator(ranks[i]);
    }
    SplitJoinRoundTrip(strings, ' ');
  }

  /** As written, the parser looks tokens up as usernames, while the run builds
      `rank_to_user_dict` (main/views.py:630-632) and never reads it. If the solver answers in
      ranks, then, when no username of a Member row is a decimal number, a `T:` line of ranks
      yields an empty team and an `S:` line of ranks raises on its first rank. */
  lemma RankTokensDropped(ranks: seq<nat>, accounts: set<string>)
    requires |ranks| >= 1
    requires forall r: nat :: NatToString(r) !in accounts
    ensures ParseLine(RankLine("T:", ranks), accounts) == Parsed([{}], None)
    ensures ParseLine(RankLine("S:", ranks), accounts) == Parsed([], Some(NatToString(ranks[0])))
  {
    RankLineBody("T:", ranks);
    RankLineBody("S:", ranks);
    var strings := SolverInput.RankStrings(ranks);
    assert forall u :: u in strings ==> u !in accounts;
    assert TeamMembers(strings, accounts) == {};
    assert strings[0] == NatToString(ranks[0]);
  }

  /** As written, a line keeps its line ending, so the last token of a `T:` line carries "\n" and
      is not found: the last member named on the line is left out of the team. */
  lemma LastMemberDropped(a: string, b: string, accounts: set<string>)
    requires a in accounts && b in accounts
    requires b + "\n" !in accounts
    requires ' ' !in a && ' ' !in b && a != b
    ensures ParseLine("T: " + a + " " + b + "\n", accounts) == Parsed([{a}], None)
  {
    var line := "T: " + a + " " + b + "\n";
    assert line[..2] == "T:";
    assert From(line, 3) == a + [' '] + (b + "\n");
    SplitConcat(a, b + "\n", ' ');
    SplitNoSeparator(a, ' ');
    SplitNoSeparator(b + "\n", ' ');
    assert Body(line) == [a, b + "\n"];
    assert TeamMembers(Body(line), accounts) == {a};
  }

  /** Two spaces in a row give a "" token, and "" is the username of a pending invited account
      (main/views.py:433, 459): when exactly one such account exists, "T: a  b" puts it in the
      team. With two or more, the lookup at main/views.py:687 raises `MultipleObjectsReturned`,
      which is not modelled; `S:` lines skip "" tokens (main/views.py:695). */
  lemma PendingAccountJoins(a: string, b: string, accounts: set<string>)
    requires a in accounts && b in accounts && "" in accounts
    requires ' ' !in a && ' ' !in b
    ensures ParseLine("T: " + a + "  " + b, accounts) == Parsed([{a, "", b}], None)
  {
    var line := "T: " + a + "  " + b;
    assert line[..2] == "T:";
    assert From(line, 3) == a + [' '] + ("" + [' '] + b);
    SplitConcat("", b, ' ');
    SplitConcat(a, "" + [' '] + b, ' ');
    SplitNoSeparator(a, ' ');
    SplitNoSeparator(b, ' ');
    assert Body(line) == [a, "", b];
    assert TeamMembers(Body(line), accounts) == {a, "", b};
  }

  /** As written, the line ending makes the last token of an `S:` line a non-empty unknown
      username, so the lookup raises. */
  lemma SoloLineEndingRaises(a: string, accounts: set<string>)
    requires a in accounts
    requires a + "\n" !in accounts
    requires ' ' !in a
    ensures ParseLine("S: " + a + "\n", accounts) == Parsed([], Some(a + "\n"))
  {
    var line := "S: " + a + "\n";
    assert line[..2] == "S:";
    assert From(line, 3) == a + "\n";
    SplitNoSeparator(a + "\n", ' ');
    assert Body(line) == [a + "\n"];
  }

  // ---------------------------------------------------------------------------
  // The parser as intended
  // ---------------------------------------------------------------------------

  /** The line without its final line ending. */
  function StripNewline(line: string): (stripped: string)
    ensures '\n' !in line ==> stripped == line
    ensures stripped + "\n" == line || stripped == line
  {
    if |line| > 0 && line[|line| - 1] == '\n' then line[..|line| - 1] else line
  }

  lemma StripNewlineAppended(line: string)
    ensures StripNewline(line + "\n") == line
  {
    assert (line + "\n")[..|line|] == line;
  }

  /** One output line read as the code reads it, usernames and all, but with the line ending
      dropped before the split: this correction is independent of what the tokens stand for. */
  function ParseLineStripped(line: string, accounts: set<string>): (p: Parsed)
    ensures '\n' !in line ==> p == ParseLine(line, accounts)
    ensures TeamsWithin(p.teams, accounts)
  {
    ParseLine(StripNewline(line), accounts)
  }

  /** With the line ending stripped, both members named on "T: a b\n" are in the team. */
  lemma StrippedKeepsLastMember(a: string, b: string, accounts: set<string>)
    requires a in accounts && b in accounts
    requires ' ' !in a && ' ' !in b
    ensures ParseLineStripped("T: " + a + " " + b + "\n", accounts) == Parsed([{a, b}], None)
  {
    var line := "T: " + a + " " + b;
    assert line + "\n" == "T: " + a + " " + b + "\n";
    StripNewlineAppended(line);
    assert line[..2] == "T:";
    assert From(line, 3) == a + [' '] + b;
    SplitConcat(a, b, ' ');
    SplitNoSeparator(a, ' ');
    SplitNoSeparator(b, ' ');
    assert Body(line) == [a, b];
    assert TeamMembers(Body(line), accounts) == {a, b};
  }

  /** With the line ending stripped, "S: a\n" makes the singleton team {a} instead of raising. */
  lemma StrippedSoloLine(a: string, accounts: set<string>)
    requires a in accounts && a != ""
    requires ' ' !in a
    ensures ParseLineStripped("S: " + a + "\n", accounts) == Parsed([{a}], None)
  {
    var line := "S: " + a;
    assert line + "\n" == "S: " + a + "\n";
    StripNewlineAppended(line);
    assert line[..2] == "S:";
    assert From(line, 3) == a;
    SplitNoSeparator(a, ' ');
    assert Body(line) == [a];
    SoloTeamsComplete([a], accounts);
    assert NonEmpty([a]) == [a];
  }

  predicate AllDigits(s: string)
  {
    forall i :: 0 <= i < |s| ==> IsDigit(s[i])
  }

  /** `rank_to_user_dict[int(token)]`, when the token is a number the dictionary knows. */
  function DecodeRank(token: string, rankToUser: map<nat, string>): (user: Option<string>)
    ensures user.Some? ==> user.value in rankToUser.Values
    ensures forall r: nat :: r in rankToUser && token == NatToString(r) ==> user == Some(rankToUser[r])
  {
    forall r: nat | token == NatToString(r)
      ensures |token| > 0 && AllDigits(token) && ParseNat(token) == r
    {
      ParseNatToString(r);
    }
    if |token| > 0 && AllDigits(token) && ParseNat(token) in rankToUser then Some(rankToUser[ParseNat(token)])
    else None
  }

  /** The members of a team read from rank tokens: every token that decodes. */
  function DecodedMembers(tokens: seq<string>, rankToUser: map<nat, string>): (members: set<string>)
    ensures forall u :: u in members <==> exists i :: 0 <= i < |tokens| && DecodeRank(tokens[i], rankToUser) == Some(u)
    decreases |tokens|
  {
    if |tokens| == 0 then {}
    else
      var rest := DecodedMembers(tokens[1..], rankToUser);
      var first := DecodeRank(tokens[0], rankToUser);
      var members := (if first.Some? then {first.value} else {}) + rest;
      assert forall u :: u in members <==> exists i :: 0 <= i < |tokens| && DecodeRank(tokens[i], rankToUser) == Some(u) by {
        forall u
          ensures u in members <==> exists i :: 0 <= i < |tokens| && DecodeRank(tokens[i], rankToUser) == Some(u)
        {
          if u in rest {
            var j :| 0 <= j < |tokens[1..]| && DecodeRank(tokens[1..][j], rankToUser) == Some(u);
            assert DecodeRank(tokens[j + 1], rankToUser) == Some(u);
          }
          if exists i :: 0 <= i < |tokens| && DecodeRank(tokens[i], rankToUser) == Some(u) {
            var i :| 0 <= i < |tokens| && DecodeRank(tokens[i], rankToUser) == Some(u);
            if i > 0 {
              assert DecodeRank(tokens[1..][i - 1], rankToUser) == Some(u);
            }
          }
        }
      }
      members
  }

  /** The decoded tokens, in order, each as a singleton team; undecodable tokens are skipped. */
  function DecodedSingletons(tokens: seq<string>, rankToUser: map<nat, string>): (teams: seq<set<string>>)
    ensures |teams| <= |tokens|
    ensures forall i :: 0 <= i < |teams| ==> |teams[i]| == 1
  {
    if |tokens| == 0 then []
    else
      var first := DecodeRank(tokens[0], rankToUser);
      (if first.Some? then [{first.value}] else []) + DecodedSingletons(tokens[1..], rankToUser)
  }

  /** One output line read through the run's `rank_to_user_dict`, for which the comment at
      main/views.py:630 says the dictionary is built: the line ending is dropped, tokens are ranks
      decoded through the dictionary, and tokens that do not decode are skipped. */
  function ParseLineIntended(line: string, rankToUser: map<nat, string>): (p: Parsed)
    ensures p.crash.None?
    ensures TeamsWithin(p.teams, rankToUser.Values)
  {
    var body := StripNewline(line);
    if StartsWith2(body, "T:") then Parsed([DecodedMembers(Body(body), rankToUser)], None)
    else if StartsWith2(body, "S:") then
      DecodedSingletonsKnown(Body(body), rankToUser);
      Parsed(DecodedSingletons(Body(body), rankToUser), None)
    else Parsed([], None)
  }

  lemma {:induction false} DecodedSingletonsKnown(tokens: seq<string>, rankToUser: map<nat, string>)
    ensures TeamsWithin(DecodedSingletons(tokens, rankToUser), rankToUser.Values)
    decreases |tokens|
  {
    if |tokens| > 0 {
      DecodedSingletonsKnown(tokens[1..], rankToUser);
      var first := DecodeRank(tokens[0], rankToUser);
      var rest := DecodedSingletons(tokens[1..], rankToUser);
      var teams := DecodedSingletons(tokens, rankToUser);
      assert teams == (if first.Some? then [{first.value}] else []) + rest;
    }
  }

  /** The intended parser does not depend on the line ending. */
  lemma IntendedIgnoresLineEnd(line: string, rankToUser: map<nat, string>)
    requires '\n' !in line
    ensures ParseLineIntended(line + "\n", rankToUser) == ParseLineIntended(line, rankToUser)
  {
    StripNewlineAppended(line);
  }

  /** Round trip with the encoder: when the ranks of a run are a permutation and the usernames are
      distinct, a `T:` line listing the ranks of some eligible members is read back, line ending
      included, as exactly the set of those members. */
  lemma DecodedRoundTrip(usernames: seq<string>, perm: seq<nat>, team: seq<string>)
    requires SolverInput.IsPermutation(perm, |usernames|)
    requires Distinct(usernames)
    requires |team| >= 1
    requires forall i :: 0 <= i < |team| ==> team[i] in usernames
    ensures var u2r := SolverInput.UserToRank(usernames, perm);
      var r2u := SolverInput.RankToUser(usernames, perm);
      var ranks := seq(|team|, i requires 0 <= i < |team| => u2r[team[i]]);
      var parsed := ParseLineIntended(RankLine("T:", ranks) + "\n", r2u);
      && |parsed.teams| == 1
      && (forall u :: u in parsed.teams[0] <==> u in team)
  {
    var u2r := SolverInput.UserToRank(usernames, perm);
    var r2u := SolverInput.RankToUser(usernames, perm);
    SolverInput.RankMapsBijection(usernames, perm);
    var ranks := seq(|team|, i requires 0 <= i < |team| => u2r[team[i]]);
    var strings := SolverInput.RankStrings(ranks);
    RankLineIntended(ranks, r2u);
    forall i | 0 <= i < |team|
      ensures DecodeRank(strings[i], r2u) == Some(team[i])
    {
      assert u2r[team[i]] in r2u;
    }
    var members := DecodedMembers(strings, r2u);
    forall u
      ensures u in members <==> u in team
    {
      if u in members {
        var i :| 0 <= i < |strings| && DecodeRank(strings[i], r2u) == Some(u);
      }
      if u in team {
        var i :| 0 <= i < |team| && team[i] == u;
      }
    }
  }

  /** The intended parser reads a `T:` line of ranks, with its line ending, as the one team of the
      ranks that decode. */
  lemma RankLineIntended(ranks: seq<nat>, rankToUser: map<nat, string>)
    requires |ranks| >= 1
    ensures ParseLineIntended(RankLine("T:", ranks) + "\n", rankToUser)
      == Parsed([DecodedMembers(SolverInput.RankStrings(ranks), rankToUser)], None)
  {
    var line := RankLine("T:", ranks);
    var strings := SolverInput.RankStrings(ranks);
    RankLineBody("T:", ranks);
    assert '\n' !in line by {
      assert line == "T:" + " " + Join(strings, " ");
      JoinNoNewline(strings);
    }
    StripNewlineAppended(line);
  }

  /** Decimal renderings joined with spaces hold no line ending. */
  lemma {:induction false} JoinNoNewline(strings: seq<string>)
    requires forall i :: 0 <= i < |strings| ==> AllDigits(strings[i])
    ensures '\n' !in Join(strings, " ")
    decreases |strings|
  {
    if |strings| > 1 {
      JoinNoNewline(strings[1..]);
      assert Join(strings, " ") == strings[0] + " " + Join(strings[1..], " ");
      assert '\n' !in strings[0] by {
        assert forall i :: 0 <= i < |strings[0]| ==> IsDigit(strings[0][i]);
      }
    } else if |strings| == 1 {
      assert forall i :: 0 <= i < |strings[0]| ==> IsDigit(strings[0][i]);
    }
  }
}
